=== FILE: README.md ===
# vertx-shell commands, modelled in Dafny

This project models the command handlers of vertx-shell. It covers two sources.

- The base command pack (`BaseCommands.java`): `echo`, `local-map-get`, `local-map-put`,
  `local-map-rm`, `bus-send`, `bus-tail`, `verticle-deploy`, `verticle-undeploy`, `cd`, `pwd`,
  `ls`, `sleep` and `help`.
- The demo launcher (`Main.java`): its token-based `echo`, `help`, `window`, `sleep`, the `ls`
  process and the `ls` tab-completion decision.

Each handler writes to its process and ends it, or installs signal or message handlers that
do (`bus-tail`, `window`, `sleep`); some, such as a successful `cd`, write nothing. A process is modelled as the `Runtime.Proc`
class. It records everything written, as one string, and every `end` call: `end()` is
`Default` and `end(n)` is `Code(n)`. Handlers that change state are methods. Their
postconditions give the new output, `end` calls, session and shared local maps in terms of
pure functions, and lemmas prove what the commands promise about those functions.

Everything Vert.x does for a handler arrives as a parameter:

- deploying and undeploying;
- the event bus;
- file-system lookups (`FsHelper.cd`, `FsHelper.ls`, `props`, `readDir`, `readDirBlocking`,
  `propsBlocking`);
- the command registry;
- the window size;
- the clock.

`sleep` (present in both files) is modelled twice over. First as a pure state machine
(`Sleep.Step` and `Sleep.Run`) over the events INT, TSTP, CONT and the timer firing, each
carrying the clock reading its handler takes. Then as the `Sleep.SleepProcess` class, whose
handler methods are proved to follow that state machine. The two copies of `sleep` differ
only in their usage line and exit code, given by `Sleep.Variant`.

The model follows the code in two places where a job-control shell would usually behave
otherwise.

- A job-control shell usually treats CONT without a prior TSTP as a no-op. The `sleep`
  handler, however, passes the initial `-1` to `scheduleSleep`, which ends the process
  (`Sleep.ResumeWithoutSuspendEnds`).
- A job-control shell usually always ends a process on INT. The `sleep` handler, however,
  ignores INT after TSTP has cancelled the timer (`Sleep.InterruptWhileSuspended`).

The process controller, which may filter or force these signals, is not part of this model.

`seconds * 1000` is computed in 32-bit `int` arithmetic, and the wrap-around is modelled:
the argument `2147484` makes `sleep` end at once (`Sleep.MillisWrapAround`).

## Model

| member | source | states |
|---|---|---|
| Strings.LastIndexOf | src/main/java/io/vertx/ext/shell/command/BaseCommands.java:265 | `lastIndexOf`: -1 exactly when the character is absent; otherwise a position holding it with none after |
| Strings.IndexOfFrom | src/main/java/io/vertx/ext/shell/Main.java:142 | `indexOf(c, from)`: -1 exactly when no position at or after `from` holds `c`; otherwise the first such position |
| Strings.Basename | src/main/java/io/vertx/ext/shell/command/BaseCommands.java:265 | the text after the last `/`; `Strings.BasenameSpec` proves it equals `path.substring(path.lastIndexOf('/') + 1)` |
| Strings.BasenameSpec | src/main/java/io/vertx/ext/shell/command/BaseCommands.java:265 | the basename is the text after the last `/`: it holds no `/`, is the whole path when the path has none, and is preceded by a `/` otherwise |
| Strings.Basenames | src/main/java/io/vertx/ext/shell/command/BaseCommands.java:264-267 | as many basenames as listed files |
| Strings.BasenamesAt | src/main/java/io/vertx/ext/shell/command/BaseCommands.java:264-267 | the i-th basename is that of the i-th listed file, so listing order is kept |
| Strings.Join | src/main/java/io/vertx/ext/shell/command/BaseCommands.java:334-342 | the parts with one separator between neighbours; `Strings.SplitJoin` and `Strings.JoinSplit` prove it inverse to `Strings.Split` |
| Strings.Split | src/main/java/io/vertx/ext/shell/command/BaseCommands.java:334-342 | splitting yields at least one piece |
| Strings.SplitPieces | src/main/java/io/vertx/ext/shell/command/BaseCommands.java:334-342 | no piece of a split holds the separator |
| Strings.SplitSnoc | src/main/java/io/vertx/ext/shell/command/BaseCommands.java:133-137 | text ending in a separator and a separator-free tail splits into the pieces of the front and then the tail |
| Strings.SplitJoin | src/main/java/io/vertx/ext/shell/command/BaseCommands.java:334-342 | joining a non-empty sequence of separator-free parts with one separator between neighbours splits back into exactly those parts |
| Strings.JoinSplit | src/main/java/io/vertx/ext/shell/command/BaseCommands.java:334-342 | joining the pieces of a split gives back the original string |
| Strings.SplitLines | src/main/java/io/vertx/ext/shell/command/BaseCommands.java:133-137 | text written as one newline-terminated line per item splits back at the newlines into exactly those items, in order |
| Strings.NatToString | src/main/java/io/vertx/ext/shell/Main.java:58 | decimal rendering: non-empty, digits only, no leading zero |
| Strings.IntToString | src/main/java/io/vertx/ext/shell/Main.java:58 | a rendered int starts with `-` exactly when it is negative |
| Strings.NatToStringValue | src/main/java/io/vertx/ext/shell/Main.java:58 | the rendered digits are worth the rendered number |
| Strings.ParseInt | src/main/java/io/vertx/ext/shell/command/BaseCommands.java:286-290 | `Integer.parseInt`: a result lies in the 32-bit range and comes from an optional sign followed by at least one digit and digits only, so a bad first character or a malformed tail is rejected; an unsigned or `+` digit string parses to its value exactly when that is at most 2^31-1, and a `-` digit string to minus its value exactly when that is at most 2^31 |
| Strings.ParseIntToString | src/main/java/io/vertx/ext/shell/command/BaseCommands.java:286-290 | parsing a rendered 32-bit value gives the value back |
| Strings.WrapInt32 | src/main/java/io/vertx/ext/shell/command/BaseCommands.java:291 | Java `int` arithmetic: the result is in range, congruent to the exact value modulo 2^32, and the exact value when that is in range |
| Runtime.Session.Get | src/main/java/io/vertx/ext/shell/command/BaseCommands.java:225 | `session.get`: present exactly when the key is set, and then its value |
| Runtime.Session.Put | src/main/java/io/vertx/ext/shell/command/BaseCommands.java:228 | `session.put` sets that key and nothing else |
| Runtime.SharedData.GetLocalMap | src/main/java/io/vertx/ext/shell/command/BaseCommands.java:132 | `getLocalMap` creates the named map, empty, when it is missing, and changes nothing else |
| Runtime.MapGet | src/main/java/io/vertx/ext/shell/command/BaseCommands.java:135 | `map.get`: a value exactly when the key is present, and then the stored one |
| Runtime.SharedData.Get | src/main/java/io/vertx/ext/shell/command/BaseCommands.java:135 | `map.get` gives the stored value, or none for an absent key |
| Runtime.SharedData.Put | src/main/java/io/vertx/ext/shell/command/BaseCommands.java:156 | `map.put` sets one key of one map |
| Runtime.SharedData.Remove | src/main/java/io/vertx/ext/shell/command/BaseCommands.java:175 | `map.remove` deletes one key of one map |
| BaseCommands.Echo | src/main/java/io/vertx/ext/shell/command/BaseCommands.java:331-346 | writes the arguments joined by exactly one space (none leading or trailing), then a newline, then ends once |
| BaseCommands.WithMapKeepsEntries | src/main/java/io/vertx/ext/shell/command/BaseCommands.java:132 | after `getLocalMap` the named map exists, no other map appears, and every lookup in every map is unchanged |
| BaseCommands.GetLines | src/main/java/io/vertx/ext/shell/command/BaseCommands.java:133-137 | one line per key |
| BaseCommands.GetLinesAt | src/main/java/io/vertx/ext/shell/command/BaseCommands.java:133-137 | the i-th line is `key: value` for the i-th key, with `null` for an absent key |
| BaseCommands.LocalMapGet | src/main/java/io/vertx/ext/shell/command/BaseCommands.java:123-142 | no arguments: the usage line and no map change; otherwise the map is only created if missing and one `key: value` line per key is written in argument order; always ends once |
| BaseCommands.WriteGetLines | src/main/java/io/vertx/ext/shell/command/BaseCommands.java:133-137 | the key loop writes the lines of the keys in order and does not end |
| BaseCommands.GetLinesStep | src/main/java/io/vertx/ext/shell/command/BaseCommands.java:134-136 | writing `key: value` for one more key, with the value the map holds, extends the output of the keys before it by exactly that line |
| BaseCommands.LocalMapGetLines | src/main/java/io/vertx/ext/shell/command/BaseCommands.java:133-137 | when no key or value holds a newline, the output splits into exactly one `key: value` line per key, in argument order |
| BaseCommands.PutEntry | src/main/java/io/vertx/ext/shell/command/BaseCommands.java:153-156 | afterwards key `args[1]` of map `args[0]` holds `args[2]`, and every other entry of every map is unchanged |
| BaseCommands.LocalMapPut | src/main/java/io/vertx/ext/shell/command/BaseCommands.java:144-161 | fewer than 3 arguments: the usage line and no map change; otherwise only that entry is set (extra arguments ignored); always ends once |
| BaseCommands.RemoveEntries | src/main/java/io/vertx/ext/shell/command/BaseCommands.java:172-176 | the named map, created if missing, loses exactly the set of listed keys; every other map is unchanged |
| BaseCommands.RemoveEntriesLookup | src/main/java/io/vertx/ext/shell/command/BaseCommands.java:172-176 | afterwards the named map exists and no other map appears; a lookup gives nothing exactly for the listed keys of that map and what it gave before everywhere else |
| BaseCommands.RemoveEntriesIdempotent | src/main/java/io/vertx/ext/shell/command/BaseCommands.java:173-176 | removing the same keys again changes nothing, and listing the keys twice removes them once |
| BaseCommands.LocalMapRm | src/main/java/io/vertx/ext/shell/command/BaseCommands.java:163-181 | no arguments: the usage line and no map change; otherwise exactly the listed keys are removed; always ends once |
| BaseCommands.BusSend | src/main/java/io/vertx/ext/shell/command/BaseCommands.java:183-197 | fewer than 2 arguments: the usage line and nothing sent; otherwise `args[1]` is sent to `args[0]`; always ends once |
| BaseCommands.BusTail.Run | src/main/java/io/vertx/ext/shell/command/BaseCommands.java:199-215 | no address: the usage line and end; otherwise a consumer on the address and a SIGINT handler, and the process keeps running |
| BaseCommands.BusTail.OnMessage | src/main/java/io/vertx/ext/shell/command/BaseCommands.java:207-209 | a message to the consumer's address is written on its own line; the process does not end |
| BaseCommands.BusTail.OnInterrupt | src/main/java/io/vertx/ext/shell/command/BaseCommands.java:210-213 | SIGINT unregisters the consumer and ends the process once |
| BaseCommands.VerticleDeploy | src/main/java/io/vertx/ext/shell/command/BaseCommands.java:48-69 | no name: the diagnostic line and end; otherwise the deployment id, or the failure and its stack trace, then end |
| BaseCommands.VerticleUndeploy | src/main/java/io/vertx/ext/shell/command/BaseCommands.java:71-92 | no id: the diagnostic line and end; otherwise success, or the failure and its stack trace, then end |
| BaseCommands.CurrentPath | src/main/java/io/vertx/ext/shell/command/BaseCommands.java:246-249 | the session `path`, or the root path when unset; `BaseCommands.CdThenPwd` relates it to every `cd` outcome |
| BaseCommands.Cd | src/main/java/io/vertx/ext/shell/command/BaseCommands.java:219-241 | no argument: session `path` becomes "/"; a resolved path is stored; a failed lookup leaves the session unchanged and writes `null: No such file or directory`; always ends once |
| BaseCommands.CdThenPwd | src/main/java/io/vertx/ext/shell/command/BaseCommands.java:225-250 | pwd shows the session path or, before any cd, the root path; after cd with no argument it shows "/", after a successful cd the resolved path |
| BaseCommands.Pwd | src/main/java/io/vertx/ext/shell/command/BaseCommands.java:243-253 | writes the session path (or the root path when unset) and a newline, then ends once |
| BaseCommands.LsTarget | src/main/java/io/vertx/ext/shell/command/BaseCommands.java:261 | the listed directory is the first argument, or "." without one |
| BaseCommands.Ls | src/main/java/io/vertx/ext/shell/command/BaseCommands.java:255-275 | on success one basename line per listed file, in listing order; on failure `ls:` and the message; always ends once |
| BaseCommands.WriteBasenames | src/main/java/io/vertx/ext/shell/command/BaseCommands.java:264-267 | writes each file's basename followed by the line terminator, in order, without ending |
| BaseCommands.Help | src/main/java/io/vertx/ext/shell/command/BaseCommands.java:348-360 | a heading, then each registered command's name on its own line, then end once |
| Sleep.Millis | src/main/java/io/vertx/ext/shell/command/BaseCommands.java:285-291 | milliseconds are in the 32-bit range; an unparsable argument gives -1000; a value within ±2147483 gives exactly value × 1000; any parsed value gives a result congruent to value × 1000 modulo 2^32, the Java `int` product |
| Sleep.Start | src/main/java/io/vertx/ext/shell/command/BaseCommands.java:280-292 | a timer is armed exactly when there is an argument and its milliseconds are positive, pending with `remaining` -1 and started now; otherwise the process ends once |
| Sleep.Schedule | src/main/java/io/vertx/ext/shell/command/BaseCommands.java:295-321 | `scheduleSleep`: no end exactly when the duration is positive, and then a fresh pending timer of that duration started now with `remaining` -1; otherwise one end and the handlers unchanged |
| Sleep.Step | src/main/java/io/vertx/ext/shell/command/BaseCommands.java:301-318 | one event ends the process at most once; before `run` arms a timer nothing happens; the timer firing, INT and TSTP all leave the timer not pending, and only firing or INT on a pending timer end the process; CONT ends it exactly when the recorded remainder is not positive |
| Sleep.Run | src/main/java/io/vertx/ext/shell/command/BaseCommands.java:301-318 | a sequence of events ends the process at most once per event, does nothing before a timer is armed, and keeps an armed state armed |
| Sleep.AtMostOneEndWithoutResume | src/main/java/io/vertx/ext/shell/command/BaseCommands.java:301-315 | without CONT, the timer firing and INT together end the process at most once, and never once the timer is no longer pending |
| Sleep.ResumeNeverLonger | src/main/java/io/vertx/ext/shell/command/BaseCommands.java:310-318 | with a clock that does not go back, every rescheduled timer and every recorded remainder is at most the original duration |
| Sleep.SleepNeverLonger | src/main/java/io/vertx/ext/shell/command/BaseCommands.java:280-318 | from `run` onwards, any sequence of signals and timer events never schedules more than the milliseconds first computed |
| Sleep.SuspendThenResume | src/main/java/io/vertx/ext/shell/command/BaseCommands.java:310-318 | TSTP records `millis - elapsed`, at most `millis`, and the following CONT schedules exactly that remainder |
| Sleep.ResumeWithoutSuspendEnds | src/main/java/io/vertx/ext/shell/command/BaseCommands.java:300-320 | CONT while the timer is pending passes -1 and ends the process; the timer still fires and ends it again |
| Sleep.InterruptWhileSuspended | src/main/java/io/vertx/ext/shell/command/BaseCommands.java:304-315 | INT after TSTP finds no timer to cancel and does not end the process |
| Sleep.SuspendResumeScenario | src/main/java/io/vertx/ext/shell/command/BaseCommands.java:280-318 | `sleep 5`, TSTP at 2000 ms, CONT at 4000 ms: a 3000 ms timer from 4000 ms, ending the process once |
| Sleep.InterruptScenario | src/main/java/io/vertx/ext/shell/command/BaseCommands.java:301-309 | `sleep 5` then INT: the process ends once and the cancelled timer does not end it again |
| Sleep.MillisWrapAround | src/main/java/io/vertx/ext/shell/command/BaseCommands.java:286-291 | the 32-bit product wraps: the argument `-4294967`, as `process.arguments().get(0)` hands it over, gives a 296 ms timer, and the argument `2147484` a negative duration |
| Sleep.SleepProcess.constructor | src/main/java/io/vertx/ext/shell/Main.java:71-112 | the demo copy writes its usage line with "\r\n" and ends with code 0; the base copy uses "\n" and `end()` |
| Sleep.SleepProcess.ScheduleSleep | src/main/java/io/vertx/ext/shell/command/BaseCommands.java:295-322 | a positive duration arms a fresh pending timer started now; otherwise the process ends once and the handlers stay as they were |
| Sleep.SleepProcess.Run | src/main/java/io/vertx/ext/shell/command/BaseCommands.java:280-293 | follows `Start`: the usage line and end without an argument, otherwise schedules the parsed duration |
| Sleep.SleepProcess.OnTimer | src/main/java/io/vertx/ext/shell/command/BaseCommands.java:301-303 | the timer firing ends the process once, if it was still pending |
| Sleep.SleepProcess.OnInterrupt | src/main/java/io/vertx/ext/shell/command/BaseCommands.java:304-309 | INT ends the process once, if it cancelled a pending timer |
| Sleep.SleepProcess.OnSuspend | src/main/java/io/vertx/ext/shell/command/BaseCommands.java:310-315 | TSTP cancels a pending timer and records `millis - (now - start)`; it never ends the process |
| Sleep.SleepProcess.OnResume | src/main/java/io/vertx/ext/shell/command/BaseCommands.java:316-318 | CONT calls `scheduleSleep(remaining)` |
| LsCompletion.SplitPath | src/main/java/io/vertx/ext/shell/Main.java:133-148 | the name is a suffix of the typed text with no `/`; no `/`: list "."; a single leading `/`: list "/"; otherwise directory, `/` and name rebuild the text |
| LsCompletion.LastText | src/main/java/io/vertx/ext/shell/Main.java:123-129 | the value of the last token when it is text, else "" |
| LsCompletion.StartingWith | src/main/java/io/vertx/ext/shell/Main.java:156 | every kept name starts with the typed name, and no more names are kept than listed |
| LsCompletion.StartingWithSpec | src/main/java/io/vertx/ext/shell/Main.java:156 | a name is kept exactly when it is listed and starts with the typed name, and as often as it is listed |
| LsCompletion.StartingWithAppend | src/main/java/io/vertx/ext/shell/Main.java:156 | filtering a concatenation filters each part in place, so listing order is kept |
| LsCompletion.CommonPrefix | src/main/java/io/vertx/ext/shell/Main.java:169 | the result is a prefix of both strings |
| LsCompletion.CommonPrefixLongest | src/main/java/io/vertx/ext/shell/Main.java:169 | every prefix two strings share is a prefix of their CommonPrefix |
| LsCompletion.Lcp | src/main/java/io/vertx/ext/shell/Main.java:169 | a prefix of the first and the last string; `LsCompletion.LcpSpec` extends this to all and proves it the longest |
| LsCompletion.LcpSpec | src/main/java/io/vertx/ext/shell/Main.java:169 | `findLongestCommonPrefix`: a prefix of every match, and every prefix they all share is a prefix of it |
| LsCompletion.Decide | src/main/java/io/vertx/ext/shell/Main.java:155-175 | a candidate list is exactly the entries starting with the name and never a single one; a terminal completion comes only from exactly one match; a non-terminal completion is never empty |
| LsCompletion.DecideNone | src/main/java/io/vertx/ext/shell/Main.java:157-158 | the empty candidate list exactly when no entry starts with the name |
| LsCompletion.DecideOne | src/main/java/io/vertx/ext/shell/Main.java:159-167 | one match: name + completion is the match, with `/` appended and non-terminal exactly when typed text + completion is a directory |
| LsCompletion.DecideMany | src/main/java/io/vertx/ext/shell/Main.java:168-174 | several matches: a non-terminal, non-empty extension after which name + extension is a prefix of every match and the longest such; otherwise the matches unchanged, which share nothing beyond the name |
| LsCompletion.Complete | src/main/java/io/vertx/ext/shell/Main.java:178-183 | a failed directory read gives the empty candidate list |
| LsCompletion.CompleteScenarioCandidates | src/main/java/io/vertx/ext/shell/Main.java:122-175 | `ls do` against `docs` and `downloads` offers both names |
| LsCompletion.CompleteScenarioRoot | src/main/java/io/vertx/ext/shell/Main.java:140-167 | `/et` against the root's `bin` and `etc` completes `c/`, not terminal, since `/etc` is a directory |
| DemoCommands.TokenTextAppend | src/main/java/io/vertx/ext/shell/Main.java:30-36 | each token contributes its text in place: echo's text of a concatenation is the concatenation |
| DemoCommands.TokenText | src/main/java/io/vertx/ext/shell/Main.java:30-36 | what `echo` writes for the tokens; `DemoCommands.TokenTextAppend` and `DemoCommands.EchoSpacedWords` state its meaning |
| DemoCommands.Spaced | src/main/java/io/vertx/ext/shell/Main.java:30-36 | n words with single blanks between them are 2n-1 tokens |
| DemoCommands.EchoSpacedWords | src/main/java/io/vertx/ext/shell/Main.java:30-37 | for words separated by single blanks, echo writes the words joined by exactly one space |
| DemoCommands.EchoTokens | src/main/java/io/vertx/ext/shell/Main.java:29-39 | each text token's value and one space per other token, in order, then "\r\n", then end with code 0 |
| DemoCommands.EchoScenario | src/main/java/io/vertx/ext/shell/Main.java:29-39 | the tokens `a`, blank, `b`, blank, `c` are echoed as "a b c\r\n" |
| DemoCommands.Help | src/main/java/io/vertx/ext/shell/Main.java:43-52 | a heading and one line per demo command, then end with code 0 |
| DemoCommands.ParseWindowLine | src/main/java/io/vertx/ext/shell/Main.java:58 | only a bracketed, "\r\n"-terminated line reads back as a size |
| DemoCommands.WindowLine | src/main/java/io/vertx/ext/shell/Main.java:58 | the `[w,h]` line; `DemoCommands.WindowLineRoundTrip` proves it reads back as exactly the width and height |
| DemoCommands.NoCommaInInt | src/main/java/io/vertx/ext/shell/Main.java:58 | a rendered int holds no comma, so the comma separates width and height unambiguously |
| DemoCommands.WindowLineRoundTrip | src/main/java/io/vertx/ext/shell/Main.java:58-60 | `[w,h]\r\n` reads back as exactly the width and height |
| DemoCommands.WindowProcess.Run | src/main/java/io/vertx/ext/shell/Main.java:57-65 | writes the size line once at start and installs the handlers without ending |
| DemoCommands.WindowProcess.OnWinch | src/main/java/io/vertx/ext/shell/Main.java:59-61 | SIGWINCH writes the new size line and never ends the process |
| DemoCommands.WindowProcess.OnInterrupt | src/main/java/io/vertx/ext/shell/Main.java:62-64 | SIGINT ends the process with code 0 |
| DemoCommands.LsPath | src/main/java/io/vertx/ext/shell/Main.java:187-193 | the value of the first text token, or "." when there is none |
| DemoCommands.LsAsWritten | src/main/java/io/vertx/ext/shell/Main.java:194-212 | the effect of the `ls` handler as written; `DemoCommands.LsAsWrittenEnds` characterises when it ends |
| DemoCommands.LsChecked | src/main/java/io/vertx/ext/shell/Main.java:194-212 | the effect with the listing's result tested; `DemoCommands.LsCheckedAlwaysEnds` proves it always ends once |
| DemoCommands.LsAsWrittenEnds | src/main/java/io/vertx/ext/shell/Main.java:194-212 | as written, ls ends exactly when the path is missing or its listing is read; a failed listing leaves it running with nothing written |
| DemoCommands.LsOfFileNeverEnds | src/main/java/io/vertx/ext/shell/Main.java:196-198 | `ls README.md` on a regular file never ends |
| DemoCommands.LsCheckedAlwaysEnds | src/main/java/io/vertx/ext/shell/Main.java:194-212 | with the listing's result tested, ls always ends once with code 0, writes the basename lines or the diagnostic, and agrees with the code wherever that ends |
| DemoCommands.LsProcess | src/main/java/io/vertx/ext/shell/Main.java:186-213 | the `ls` process as written follows `LsAsWritten` on the first text token's path |
| DemoCommands.LsProcessChecked | src/main/java/io/vertx/ext/shell/Main.java:186-213 | the `ls` process with the listing's result tested follows `LsChecked` |

## Left out

- `verticle-ls`, `verticle-factories` and `server-ls` (BaseCommands.java:33-46, 94-121): they only print Vert.x runtime internals (deployments, factories, shared servers), which are not part of this model.
- Vert.x itself: deploying and undeploying, the event bus, the file system and `FsHelper`, the command registry and `executeBlocking`. Their outcomes are parameters: a deployment id or a stack-trace string, the sent message pair, a resolved path or listing, and the registered names.
- Stack traces are opaque strings, and `System.out.println` logging is not modelled.
- BaseCommands.Ls: `FsHelper.ls` hands back a map from file to properties, and its iteration order is taken as the listing order given.
- Runtime.SharedData: local maps hold arbitrary Java objects; here keys and values are strings, and a missing value renders as `null`.
- Strings.ParseInt: accepts ASCII digits only; `Integer.parseInt` also accepts other Unicode decimal digits.
- Sleep.SleepProcess: each positive `scheduleSleep` is taken to replace the SIGINT, SIGTSTP and SIGCONT handlers registered before it (`process.eventHandler` at BaseCommands.java:304-318 is not part of this model). If the process kept every registered handler instead, a second CONT would also run the first cycle's CONT handler with its stale `remaining`, arming a second timer and ending the process a second time; the model does not capture that behaviour.
- DemoCommands.EchoScenario: the handler's argument tokens are taken to start with the first word. The tokenizer and the command registry, which decide that, are not part of this model; if the arguments began with the blank after `echo`, the output would start with a space.
- Sleep.Start: `args` are the positional arguments `GetOptCommand` hands over (`process.arguments()`, BaseCommands.java:285 and Main.java:76); option parsing is not modelled, so whether an argument starting with `-` reaches `run` at all is not captured.
- Sleep.Step: times and `remaining` are unbounded integers; Java `long` overflow of the clock is not modelled.
- Sleep.SleepProcess: the process controller is not modelled. It may drop signals or second `end` calls once a process has terminated, and may force termination on INT; the model records every `end` call the handlers make.
- LsCompletion.Complete: a failing `propsBlocking` inside the completion decision (Main.java:162) is not modelled; `isDir` is total.
- DemoCommands.LsProcess: the stack trace printed for a failed listing goes to the error stream and is not modelled.
- The `ShellService` start-up and its Telnet and SSH connectors (Main.java:218-221), and the command registrations in `main`.
- The generated JavaScript, Ruby and RxJava bindings: they only forward calls to the Java classes.
- Concurrency: handlers run one at a time on the process's event loop, so events are modelled as a sequence.

## Findings

| source | as written | input that shows it | evidently intended | confidence | as-written member | corrected member |
|---|---|---|---|---|---|---|
| src/main/java/io/vertx/ext/shell/Main.java:196-207 | inside the `readDir` callback the code tests `ar1.succeeded()` (props) instead of `ar2.succeeded()`; a failed listing is read as null and the loop throws before `process.end(0)` | `ls README.md` where README.md is an existing regular file: props succeeds, readDir fails | test the listing's own result, report the failure and end with code 0 | high; not executed | DemoCommands.LsOfFileNeverEnds | DemoCommands.LsCheckedAlwaysEnds |

=== FILE: base_commands.dfy ===
/** The handlers of the base command pack: echo, the local-map commands, the event-bus
    guards, verticle deploy/undeploy, cd/pwd/ls and help. Each handler writes to its
    process and ends it; what Vert.x itself does (deploying, the event bus, the file
    system) arrives as a parameter holding the outcome. The pack's `sleep` is
    Sleep.SleepProcess with Sleep.BaseVariant. */
module BaseCommands {
  import opened Wrappers
  import opened Strings
  import opened Runtime

  const PathKey := "path"

  /** `echo`: the arguments with one space between neighbours, a newline, then end. */
  method Echo(p: Proc, args: seq<string>)
    modifies p
    ensures p.out == old(p.out) + Join(args, ' ') + "\n"
    ensures p.ends == old(p.ends) + [Default]
  {
    var first := true;
    for i := 0 to |args|
      invariant first <==> i == 0
      invariant p.out == old(p.out) + Join(args[..i], ' ')
      invariant p.ends == old(p.ends)
    {
      if !first {
        p.Write(" ");
      }
      p.Write(args[i]);
      first := false;
      assert args[..i + 1][..i] == args[..i];
    }
    assert args[..|args|] == args;
    p.Write("\n");
    p.End(Default);
  }

  /** The text Java renders for a looked-up value: the value, or "null" when absent. */
  function ValueText(v: Option<string>): string
  {
    match v
    case Some(s) => s
    case None => "null"
  }

  /** The line written for `key` when the map holds `value` for it, without its newline. */
  function Line(key: string, value: Option<string>): string
  {
    key + ": " + ValueText(value)
  }

  /** The line local-map-get writes for `key` of map `m`, without its newline. */
  function GetLine(m: map<string, string>, key: string): string
  {
    Line(key, MapGet(m, key))
  }

  /** The lines of the keys, in argument order. */
  function GetLines(m: map<string, string>, keys: seq<string>): (r: seq<string>)
    ensures |r| == |keys|
    decreases |keys|
  {
    if |keys| == 0 then [] else GetLines(m, keys[..|keys| - 1]) + [GetLine(m, keys[|keys| - 1])]
  }

  /** The maps after `getLocalMap(name)`: the named map exists, and every lookup in every map
      gives what it gave before. */
  function WithMap(maps: map<string, map<string, string>>, name: string): (r: map<string, map<string, string>>)
  {
    maps[name := MapOf(maps, name)]
  }

  /** getLocalMap only creates: afterwards the named map exists, every other map is untouched
      and every lookup in every map gives what it gave before. */
  lemma WithMapKeepsEntries(maps: map<string, map<string, string>>, name: string)
    ensures WithMap(maps, name).Keys == maps.Keys + {name}
    ensures name in maps ==> WithMap(maps, name) == maps
    ensures forall n, k :: Lookup(WithMap(maps, name), n, k) == Lookup(maps, n, k)
  {
  }

  /** The maps after `getLocalMap(name).put(key, value)`: `key` of map `name` holds `value`;
      every other entry of every map is as before. */
  function PutEntry(maps: map<string, map<string, string>>, name: string, key: string, value: string)
    : (r: map<string, map<string, string>>)
    ensures r.Keys == maps.Keys + {name}
    ensures Lookup(r, name, key) == Some(value)
    ensures forall n, k :: (n != name || k != key) ==> Lookup(r, n, k) == Lookup(maps, n, k)
  {
    maps[name := MapOf(maps, name)[key := value]]
  }

  /** The maps after `getLocalMap(name)` and `remove(k)` for each listed key in turn. */
  function RemoveEntries(maps: map<string, map<string, string>>, name: string, keys: seq<string>)
    : (r: map<string, map<string, string>>)
    ensures r == maps[name := MapOf(maps, name) - (set k | k in keys)]
    decreases |keys|
  {
    if |keys| == 0 then
      assert MapOf(maps, name) - (set k | k in keys) == MapOf(maps, name);
      WithMap(maps, name)
    else
      var before := RemoveEntries(maps, name, keys[..|keys| - 1]);
      var init, last := keys[..|keys| - 1], keys[|keys| - 1];
      var removed := set k | k in init;
      assert (set k | k in keys) == removed + {last} by {
        assert keys == keys[..|keys| - 1] + [last];
      }
      assert (MapOf(maps, name) - removed) - {last} == MapOf(maps, name) - (removed + {last});
      before[name := before[name] - {last}]
  }

  /** After local-map-rm exactly the listed keys of the named map are absent, and every other
      lookup in every map gives what it gave before. */
  lemma RemoveEntriesLookup(maps: map<string, map<string, string>>, name: string, keys: seq<string>)
    ensures RemoveEntries(maps, name, keys).Keys == maps.Keys + {name}
    ensures forall n, k :: Lookup(RemoveEntries(maps, name, keys), n, k)
                             == if n == name && k in keys then None else Lookup(maps, n, k)
  {
  }

  /** Removing the same keys again changes nothing, and listing a key twice removes it once. */
  lemma RemoveEntriesIdempotent(maps: map<string, map<string, string>>, name: string, keys: seq<string>)
    ensures RemoveEntries(RemoveEntries(maps, name, keys), name, keys) == RemoveEntries(maps, name, keys)
    ensures RemoveEntries(maps, name, keys + keys) == RemoveEntries(maps, name, keys)
  {
    var removed, m := (set k | k in keys), MapOf(maps, name);
    assert (set k | k in keys + keys) == removed;
    assert (m - removed) - removed == m - removed;
  }

  const LocalMapGetUsage := "usage: local-map-get map keys...\n"
  const LocalMapPutUsage := "usage: local-map-put map key value\n"
  const LocalMapRmUsage := "usage: local-map-rm map keys...\n"

  /** `local-map-get map keys...`: one `key: value` line per key, in argument order; the map is
      only created if missing, never changed. */
  method LocalMapGet(p: Proc, shared: SharedData, args: seq<string>)
    modifies p, shared
    ensures args == [] ==> p.out == old(p.out) + LocalMapGetUsage && shared.maps == old(shared.maps)
    ensures args != [] ==> shared.maps == WithMap(old(shared.maps), args[0])
    ensures args != [] ==>
              p.out == old(p.out) + Lines(GetLines(MapOf(old(shared.maps), args[0]), args[1..]), "\n")
    ensures p.ends == old(p.ends) + [Default]
  {
    if |args| == 0 {
      p.Write(LocalMapGetUsage);
    } else {
      shared.GetLocalMap(args[0]);
      WriteGetLines(p, shared, args[0], args[1..]);
    }
    p.End(Default);
  }

  /** The key loop of local-map-get, on a map that exists: writes the line of each key. */
  method WriteGetLines(p: Proc, shared: SharedData, name: string, keys: seq<string>)
    requires name in shared.maps
    modifies p
    ensures p.out == old(p.out) + Lines(GetLines(shared.maps[name], keys), "\n")
    ensures p.ends == old(p.ends)
  {
    ghost var m := shared.maps[name];
    for i := 0 to |keys|
      invariant p.out == old(p.out) + Lines(GetLines(m, keys[..i]), "\n")
      invariant p.ends == old(p.ends)
    {
      var value := shared.Get(name, keys[i]);
      GetLinesStep(old(p.out), m, keys, i, value);
      p.Write(Line(keys[i], value) + "\n");
    }
    assert keys[..|keys|] == keys;
  }

  /** Writing the line of one more key, with the value the map holds for it, extends the
      output of the keys before it. */
  lemma GetLinesStep(out: string, m: map<string, string>, keys: seq<string>, i: nat, value: Option<string>)
    requires i < |keys| && value == MapGet(m, keys[i])
    ensures out + Lines(GetLines(m, keys[..i + 1]), "\n") == (out + Lines(GetLines(m, keys[..i]), "\n")) + (Line(keys[i], value) + "\n")
  {
    var line := Line(keys[i], value);
    assert keys[..i + 1][..i] == keys[..i];
    assert GetLines(m, keys[..i + 1]) == GetLines(m, keys[..i]) + [line];
    LinesAfter(out, GetLines(m, keys[..i]), line, "\n");
  }

  /** The i-th line is the line of the i-th key. */
  lemma {:induction false} GetLinesAt(m: map<string, string>, keys: seq<string>, i: nat)
    requires i < |keys|
    ensures GetLines(m, keys)[i] == GetLine(m, keys[i])
    decreases |keys|
  {
    if i < |keys| - 1 {
      GetLinesAt(m, keys[..|keys| - 1], i);
    }
  }

  /** What local-map-get writes splits at its newlines into exactly its `key: value` lines
      (when no key or value holds a newline): one line per key, in argument order. */
  lemma LocalMapGetLines(m: map<string, string>, keys: seq<string>)
    requires forall i | 0 <= i < |keys| :: '\n' !in keys[i]
    requires forall k | k in m :: '\n' !in m[k]
    ensures Split(Lines(GetLines(m, keys), "\n"), '\n') == GetLines(m, keys) + [""]
  {
    var lines := GetLines(m, keys);
    forall i | 0 <= i < |lines| ensures '\n' !in lines[i] {
      GetLinesAt(m, keys, i);
    }
    SplitLines(lines, "");
    assert Lines(lines, "\n") + "" == Lines(lines, "\n");
  }

  /** `local-map-put map key value`: sets that one entry (further arguments are ignored). */
  method LocalMapPut(p: Proc, shared: SharedData, args: seq<string>)
    modifies p, shared
    ensures |args| < 3 ==> p.out == old(p.out) + LocalMapPutUsage && shared.maps == old(shared.maps)
    ensures |args| >= 3 ==>
              shared.maps == PutEntry(old(shared.maps), args[0], args[1], args[2]) && p.out == old(p.out)
    ensures p.ends == old(p.ends) + [Default]
  {
    if |args| < 3 {
      p.Write(LocalMapPutUsage);
    } else {
      shared.GetLocalMap(args[0]);
      shared.Put(args[0], args[1], args[2]);
    }
    p.End(Default);
  }

  /** `local-map-rm map keys...`: removes each listed key of that map. */
  method LocalMapRm(p: Proc, shared: SharedData, args: seq<string>)
    modifies p, shared
    ensures args == [] ==> p.out == old(p.out) + LocalMapRmUsage && shared.maps == old(shared.maps)
    ensures args != [] ==> shared.maps == RemoveEntries(old(shared.maps), args[0], args[1..]) && p.out == old(p.out)
    ensures p.ends == old(p.ends) + [Default]
  {
    if |args| == 0 {
      p.Write(LocalMapRmUsage);
    } else {
      var name := args[0];
      shared.GetLocalMap(name);
      var i := 1;
      while i < |args|
        invariant 1 <= i <= |args|
        invariant shared.maps == RemoveEntries(old(shared.maps), name, args[1..i])
        invariant p.out == old(p.out) && p.ends == old(p.ends)
      {
        shared.Remove(name, args[i]);
        assert args[1..i + 1][..i - 1] == args[1..i];
        i := i + 1;
      }
      assert args[1..i] == args[1..];
    }
    p.End(Default);
  }

  const BusSendUsage := "usage: bus-send address message\n"
  const BusTailUsage := "usage: bus-tail address\n"

  /** `bus-send address message`: sends the message (the returned pair) and ends. */
  method BusSend(p: Proc, args: seq<string>) returns (sent: Option<(string, string)>)
    modifies p
    ensures |args| < 2 ==> sent == None && p.out == old(p.out) + BusSendUsage
    ensures |args| >= 2 ==> sent == Some((args[0], args[1])) && p.out == old(p.out)
    ensures p.ends == old(p.ends) + [Default]
  {
    if |args| < 2 {
      p.Write(BusSendUsage);
      sent := None;
    } else {
      sent := Some((args[0], args[1]));
    }
    p.End(Default);
  }

  /** One process running `bus-tail`: the address its consumer listens on, while registered,
      and whether its SIGINT handler is installed. */
  class BusTail {
    const p: Proc
    var consumer: Option<string>
    var intHandler: bool

    constructor (p: Proc)
      ensures this.p == p && consumer == None && !intHandler
    {
      this.p := p;
      consumer, intHandler := None, false;
    }

    /** The process handler: without an address, the usage line and end; otherwise register
      a consumer and a SIGINT handler and stay running. */
    method Run(args: seq<string>)
      requires consumer == None && !intHandler
      modifies this, p
      ensures |args| < 1 ==> p.out == old(p.out) + BusTailUsage && p.ends == old(p.ends) + [Default]
                             && consumer == None && !intHandler
      ensures |args| >= 1 ==> p.out == old(p.out) && p.ends == old(p.ends)
                              && consumer == Some(args[0]) && intHandler
    {
      if |args| < 1 {
        p.Write(BusTailUsage);
        p.End(Default);
      } else {
        consumer := Some(args[0]);
        intHandler := true;
      }
    }

    /** A message sent to `address`: the registered consumer writes its body on a line; the
      process does not end. */
    method OnMessage(address: string, body: string)
      modifies p
      ensures p.out == old(p.out) + if consumer == Some(address) then body + "\n" else ""
      ensures p.ends == old(p.ends)
    {
      if consumer == Some(address) {
        p.Write(body + "\n");
      }
    }

    /** SIGINT: unregister the consumer and end. */
    method OnInterrupt()
      modifies this, p
      ensures intHandler == old(intHandler)
      ensures consumer == if old(intHandler) then None else old(consumer)
      ensures p.ends == old(p.ends) + if old(intHandler) then [Default] else []
      ensures p.out == old(p.out)
    {
      if intHandler {
        consumer := None;
        p.End(Default);
      }
    }
  }

  /** `verticle-deploy name`: without a name, a diagnostic and end; otherwise the outcome of
      deploying (`deploy(name)`: the deployment id, or the failure's stack trace) is
      reported and the process ends. */
  method VerticleDeploy(p: Proc, args: seq<string>, deploy: string -> Result<string, string>)
    modifies p
    ensures args == [] ==> p.out == old(p.out) + "no verticle name specified\n"
    ensures args != [] ==>
              p.out == old(p.out) + match deploy(args[0])
                                    case Success(id) => "Deployed " + id + "\n"
                                    case Failure(trace) => "Could not deploy " + args[0] + "\n" + trace
    ensures p.ends == old(p.ends) + [Default]
  {
    if |args| == 0 {
      p.Write("no verticle name specified\n");
      p.End(Default);
      return;
    }
    var name := args[0];
    match deploy(name)
    case Success(id) =>
      p.Write("Deployed " + id + "\n");
      p.End(Default);
    case Failure(trace) =>
      p.Write("Could not deploy " + name + "\n");
      p.Write(trace);
      p.End(Default);
  }

  /** `verticle-undeploy id`: as verticle-deploy, for undeploying (`undeploy(id)`: success, or
      the failure's stack trace). */
  method VerticleUndeploy(p: Proc, args: seq<string>, undeploy: string -> Result<(), string>)
    modifies p
    ensures args == [] ==> p.out == old(p.out) + "no deployment ID specified\n"
    ensures args != [] ==>
              p.out == old(p.out) + match undeploy(args[0])
                                    case Success(_) => "Undeployed " + args[0] + "\n"
                                    case Failure(trace) => "Could not undeploy " + args[0] + "\n" + trace
    ensures p.ends == old(p.ends) + [Default]
  {
    if |args| == 0 {
      p.Write("no deployment ID specified\n");
      p.End(Default);
      return;
    }
    var id := args[0];
    match undeploy(id)
    case Success(_) =>
      p.Write("Undeployed " + id + "\n");
      p.End(Default);
    case Failure(trace) =>
      p.Write("Could not undeploy " + id + "\n");
      p.Write(trace);
      p.End(Default);
  }

  /** `cd [dir]`: with no argument the session path becomes "/"; otherwise `resolve(current
      path, dir)` (the file-system lookup) gives the new path or fails, and a failure is
      reported with the failed result, which is null. */
  method Cd(p: Proc, session: Session, args: seq<string>,
            resolve: (Option<string>, string) -> Option<string>)
    modifies p, session
    ensures args == [] ==> session.data == old(session.data)[PathKey := "/"] && p.out == old(p.out)
    ensures args != [] && resolve(old(session.Get(PathKey)), args[0]).Some? ==>
              session.data == old(session.data)[PathKey := resolve(old(session.Get(PathKey)), args[0]).value]
              && p.out == old(p.out)
    ensures args != [] && resolve(old(session.Get(PathKey)), args[0]).None? ==>
              session.data == old(session.data) && p.out == old(p.out) + "null: No such file or directory"
    ensures p.ends == old(p.ends) + [Default]
  {
    if |args| > 0 {
      var path := session.Get(PathKey);
      match resolve(path, args[0])
      case Some(newPath) =>
        session.Put(PathKey, newPath);
        p.End(Default);
      case None =>
        p.Write("null" + ": No such file or directory");
        p.End(Default);
    } else {
      session.Put(PathKey, "/");
      p.End(Default);
    }
  }

  /** The path pwd reports: the session's "path", or the root path when it has none. */
  function CurrentPath(data: map<string, string>, rootPath: string): string
  {
    if PathKey in data then data[PathKey] else rootPath
  }

  /** pwd shows the session path, or the root path before any cd; after `cd` it shows "/"
      when cd had no argument and the resolved path when the lookup succeeded. */
  lemma CdThenPwd(data: map<string, string>, rootPath: string, resolved: Option<string>)
    ensures PathKey in data ==> CurrentPath(data, rootPath) == data[PathKey]
    ensures PathKey !in data ==> CurrentPath(data, rootPath) == rootPath
    ensures CurrentPath(data[PathKey := "/"], rootPath) == "/"
    ensures resolved.Some? ==> CurrentPath(data[PathKey := resolved.value], rootPath) == resolved.value
  {
  }

  /** `pwd`: the current path and a newline. */
  method Pwd(p: Proc, session: Session, rootPath: string)
    modifies p
    ensures p.out == old(p.out) + CurrentPath(session.data, rootPath) + "\n"
    ensures p.ends == old(p.ends) + [Default]
  {
    var path := session.Get(PathKey);
    var shown := match path case Some(s) => s case None => rootPath;
    p.Write(shown);
    p.Write("\n");
    p.End(Default);
  }

  /** The directory `ls` lists: its first argument, or ".". */
  function LsTarget(args: seq<string>): (r: string)
    ensures r == "." <==> args == [] || args[0] == "."
    ensures args != [] ==> r == args[0]
  {
    if |args| > 0 then args[0] else "."
  }

  /** `ls [dir]`: `list(session path, dir)` is the listing or an error message; each entry's
      basename is written on its own line, or the error, then end. */
  method Ls(p: Proc, session: Session, args: seq<string>,
            list: (Option<string>, string) -> Result<seq<string>, string>)
    modifies p
    ensures p.out == old(p.out) + match list(session.Get(PathKey), LsTarget(args))
                                  case Success(files) => Lines(Basenames(files), "\n")
                                  case Failure(msg) => "ls:" + msg + "\n"
    ensures p.ends == old(p.ends) + [Default]
  {
    match list(session.Get(PathKey), LsTarget(args)) {
      case Success(files) =>
        WriteBasenames(p, files, "\n");
      case Failure(msg) =>
        p.Write("ls:" + msg + "\n");
    }
    p.End(Default);
  }

  /** Writes the basename of each listed file followed by `eol`, in listing order. */
  method WriteBasenames(p: Proc, files: seq<string>, eol: string)
    modifies p
    ensures p.out == old(p.out) + Lines(Basenames(files), eol)
    ensures p.ends == old(p.ends)
  {
    for i := 0 to |files|
      invariant p.out == old(p.out) + Lines(Basenames(files[..i]), eol)
      invariant p.ends == old(p.ends)
    {
      var name := Basename(files[i]);
      assert files[..i + 1][..i] == files[..i];
      assert Basenames(files[..i + 1]) == Basenames(files[..i]) + [name];
      LinesSnoc(Basenames(files[..i]), name, eol);
      p.Write(name + eol);
    }
    assert files[..|files|] == files;
  }

  /** `help`: a heading, then each registered command's name on its own line. */
  method Help(p: Proc, registered: seq<string>)
    modifies p
    ensures p.out == old(p.out) + "available commands:\n" + Lines(registered, "\n")
    ensures p.ends == old(p.ends) + [Default]
  {
    p.Write("available commands:\n");
    for i := 0 to |registered|
      invariant p.out == old(p.out) + "available commands:\n" + Lines(registered[..i], "\n")
      invariant p.ends == old(p.ends)
    {
      p.Write(registered[i]);
      p.Write("\n");
      assert registered[..i + 1][..i] == registered[..i];
    }
    assert registered[..|registered|] == registered;
    p.End(Default);
  }
}

=== FILE: demo_commands.dfy ===
/** The commands the demo launcher registers: a token-based `echo`, `help`, `window` and `ls`
    (its completion is LsCompletion); its `sleep` is Sleep.SleepProcess with
    Sleep.DemoVariant. These handlers end lines with "\r\n" and end with exit code 0. */
module DemoCommands {
  import opened Wrappers
  import opened Strings
  import opened Runtime
  import BaseCommands

  /** What `echo` writes for the tokens: each text token's value, and one space for each
      other token, in token order. */
  function TokenText(tokens: seq<CliToken>): string
    decreases |tokens|
  {
    if |tokens| == 0 then ""
    else
      TokenText(tokens[..|tokens| - 1]) +
      match tokens[|tokens| - 1]
      case Text(v) => v
      case Blank => " "
  }

  /** TokenText of a concatenation is the concatenation of the TokenTexts: every token
      contributes its text in place. */
  lemma {:induction false} TokenTextAppend(a: seq<CliToken>, b: seq<CliToken>)
    ensures TokenText(a + b) == TokenText(a) + TokenText(b)
    decreases |b|
  {
    if |b| == 0 {
      assert a + b == a;
    } else {
      var init := b[..|b| - 1];
      assert (a + b)[..|a + b| - 1] == a + init;
      TokenTextAppend(a, init);
    }
  }

  /** The words as the command line hands them over: text tokens with one blank between
      neighbours. */
  function Spaced(words: seq<string>): (r: seq<CliToken>)
    ensures |words| > 0 ==> |r| == 2 * |words| - 1
    decreases |words|
  {
    if |words| == 0 then []
    else if |words| == 1 then [Text(words[0])]
    else Spaced(words[..|words| - 1]) + [Blank, Text(words[|words| - 1])]
  }

  /** For words separated by single blanks, `echo` writes the words with one space between
      neighbours and none before or after. */
  lemma {:induction false} EchoSpacedWords(words: seq<string>)
    ensures TokenText(Spaced(words)) == Join(words, ' ')
    decreases |words|
  {
    if |words| == 1 {
      assert [Text(words[0])][..0] == [];
    } else if |words| > 1 {
      var init, last := words[..|words| - 1], words[|words| - 1];
      EchoSpacedWords(init);
      TokenTextAppend(Spaced(init), [Blank, Text(last)]);
      assert [Blank, Text(last)][..1] == [Blank];
      assert [Blank][..0] == [];
    }
  }

  /** `echo`: writes each token's text in turn, then "\r\n", then ends with code 0. */
  method EchoTokens(p: Proc, tokens: seq<CliToken>)
    modifies p
    ensures p.out == old(p.out) + TokenText(tokens) + "\r\n"
    ensures p.ends == old(p.ends) + [Code(0)]
  {
    for i := 0 to |tokens|
      invariant p.out == old(p.out) + TokenText(tokens[..i])
      invariant p.ends == old(p.ends)
    {
      assert tokens[..i + 1][..i] == tokens[..i];
      if tokens[i].Text? {
        p.Write(tokens[i].value);
      } else {
        p.Write(" ");
      }
    }
    assert tokens[..|tokens|] == tokens;
    p.Write("\r\n");
    p.End(Code(0));
  }

  /** `echo a b c` given as the words with blanks between them writes "a b c\r\n". */
  lemma EchoScenario()
    ensures TokenText(Spaced(["a", "b", "c"])) + "\r\n" == "a b c\r\n"
  {
    EchoSpacedWords(["a", "b", "c"]);
    assert ["a", "b", "c"][..2] == ["a", "b"];
    assert ["a", "b"][..1] == ["a"];
  }

  const DemoCommandNames: seq<string> := ["echo", "help", "ls", "sleep", "window"]

  /** `help`: a heading, one line per demo command, then end with code 0. */
  method Help(p: Proc)
    modifies p
    ensures p.out == old(p.out) + "available commands:\r\n" + Lines(DemoCommandNames, "\r\n")
    ensures p.ends == old(p.ends) + [Code(0)]
  {
    p.Write("available commands:\r\n");
    for i := 0 to |DemoCommandNames|
      invariant p.out == old(p.out) + "available commands:\r\n" + Lines(DemoCommandNames[..i], "\r\n")
      invariant p.ends == old(p.ends)
    {
      assert DemoCommandNames[..i + 1][..i] == DemoCommandNames[..i];
      p.Write(DemoCommandNames[i] + "\r\n");
    }
    assert DemoCommandNames[..|DemoCommandNames|] == DemoCommandNames;
    p.End(Code(0));
  }

  /** The line `window` writes for a window of `w` columns and `h` rows. */
  function WindowLine(w: int, h: int): string
  {
    "[" + IntToString(w) + "," + IntToString(h) + "]\r\n"
  }

  /** Reads a window line back: the width and height between the brackets, or None. */
  function ParseWindowLine(s: string): (r: Option<(int, int)>)
    ensures r.Some? ==> |s| >= 4 && s[0] == '[' && s[|s| - 3..] == "]\r\n"
  {
    if |s| < 4 || s[0] != '[' || s[|s| - 3..] != "]\r\n" then None
    else
      var parts := Split(s[1..|s| - 3], ',');
      if |parts| != 2 then None
      else
        match (ParseInt(parts[0]), ParseInt(parts[1]))
        case (Some(w), Some(h)) => Some((w, h))
        case _ => None
  }

  /** A rendered Java int holds no comma. */
  lemma NoCommaInInt(n: int)
    ensures ',' !in IntToString(n)
  {
    var d := NatToString(if n < 0 then -n else n);
    assert forall i | 0 <= i < |d| :: IsDigit(d[i]);
    if n < 0 {
      var s := "-" + d;
      forall i | 0 <= i < |s| ensures s[i] != ',' {
        if i > 0 {
          assert s[i] == d[i - 1];
        }
      }
    }
  }

  /** The window line names the size exactly: reading it back gives the width and height. */
  lemma WindowLineRoundTrip(w: int, h: int)
    requires MinInt32 <= w <= MaxInt32 && MinInt32 <= h <= MaxInt32
    ensures ParseWindowLine(WindowLine(w, h)) == Some((w, h))
  {
    var a, b := IntToString(w), IntToString(h);
    WindowLineParts(a, b);
    NoCommaInInt(w);
    NoCommaInInt(h);
    SplitSnoc(a, ',', b);
    assert Split(a, ',') == [a];
    ParseIntToString(w);
    ParseIntToString(h);
  }

  /** The text between the brackets of a window line. */
  lemma WindowLineParts(a: string, b: string)
    ensures var s := "[" + a + "," + b + "]\r\n";
            |s| >= 4 && s[0] == '[' && s[|s| - 3..] == "]\r\n" && s[1..|s| - 3] == a + [','] + b
  {
    var s := "[" + a + "," + b + "]\r\n";
    assert s == "[" + (a + [','] + b) + "]\r\n";
  }

  /** One process running `window`: whether its SIGWINCH and SIGINT handlers are installed. */
  class WindowProcess {
    const p: Proc
    var handlers: bool

    constructor (p: Proc)
      ensures this.p == p && !handlers
    {
      this.p := p;
      handlers := false;
    }

    /** The process handler, with the window `w` by `h`: writes the size and installs the
        handlers; the process keeps running. */
    method Run(w: int, h: int)
      modifies this, p
      ensures handlers
      ensures p.out == old(p.out) + WindowLine(w, h) && p.ends == old(p.ends)
    {
      p.Write(WindowLine(w, h));
      handlers := true;
    }

    /** SIGWINCH, the window now `w` by `h`: writes the new size; never ends the process. */
    method OnWinch(w: int, h: int)
      modifies p
      ensures p.out == old(p.out) + if handlers then WindowLine(w, h) else ""
      ensures p.ends == old(p.ends)
    {
      if handlers {
        p.Write(WindowLine(w, h));
      }
    }

    /** SIGINT: ends the process with code 0. */
    method OnInterrupt()
      modifies p
      ensures p.ends == old(p.ends) + if handlers then [Code(0)] else []
      ensures p.out == old(p.out)
    {
      if handlers {
        p.End(Code(0));
      }
    }
  }

  /** The path `ls` lists: the value of the first text token, or "." when there is none. */
  function LsPath(tokens: seq<CliToken>): (r: string)
    ensures (forall i | 0 <= i < |tokens| :: tokens[i].Blank?) ==> r == "."
    ensures forall i | 0 <= i < |tokens| && tokens[i].Text? ::
              (forall j | 0 <= j < i :: tokens[j].Blank?) ==> r == tokens[i].value
    decreases |tokens|
  {
    if |tokens| == 0 then "."
    else if tokens[0].Text? then tokens[0].value
    else
      assert forall i | 1 <= i < |tokens| :: tokens[i] == tokens[1..][i - 1];
      LsPath(tokens[1..])
  }

  /** What the `ls` process writes and its `end` calls. */
  datatype LsEffect = LsEffect(out: string, ends: seq<Exit>)

  /** The `ls` process as written: `found` is whether `props(path)` succeeds and `listing`
      the outcome of `readDir(path)`. Once props has succeeded the code tests the props
      result again instead of the listing's, so a failed listing is read as null and the
      loop over it throws before `end(0)`: nothing is written and the process never ends. */
  function LsAsWritten(path: string, found: bool, listing: Option<seq<string>>): LsEffect
  {
    if !found then LsEffect("ls: " + path + ": No such file or directory", [Code(0)])
    else
      match listing
      case Some(files) => LsEffect(Lines(Basenames(files), "\r\n"), [Code(0)])
      case None => LsEffect("", [])
  }

  /** As written, `ls` ends exactly when the path is missing or its listing is read; an
      existing path whose listing fails (`ls README.md` on a regular file) leaves the process
      running with nothing written. */
  lemma LsAsWrittenEnds(path: string, found: bool, listing: Option<seq<string>>)
    ensures LsAsWritten(path, found, listing).ends != [] <==> !found || listing.Some?
    ensures LsAsWritten(path, found, listing).ends != [] ==> LsAsWritten(path, found, listing).ends == [Code(0)]
    ensures found && listing.None? ==> LsAsWritten(path, found, listing) == LsEffect("", [])
  {
  }

  /** The concrete case: `ls README.md` where README.md is a regular file. */
  lemma LsOfFileNeverEnds()
    ensures LsAsWritten("README.md", true, None).ends == []
  {
    LsAsWrittenEnds("README.md", true, None);
  }

  /** The `ls` process with the listing's own result tested: a failed listing is reported on
      the error stream (not modelled) and the process ends with code 0. */
  function LsChecked(path: string, found: bool, listing: Option<seq<string>>): LsEffect
  {
    if !found then LsEffect("ls: " + path + ": No such file or directory", [Code(0)])
    else
      match listing
      case Some(files) => LsEffect(Lines(Basenames(files), "\r\n"), [Code(0)])
      case None => LsEffect("", [Code(0)])
  }

  /** With the listing's result tested, `ls` always ends exactly once, with code 0; it writes
      the basename lines of a listing, the diagnostic for a missing path, and nothing for a
      failed listing; wherever the code as written ends, the two agree. */
  lemma LsCheckedAlwaysEnds(path: string, found: bool, listing: Option<seq<string>>)
    ensures LsChecked(path, found, listing).ends == [Code(0)]
    ensures !found ==> LsChecked(path, found, listing).out == "ls: " + path + ": No such file or directory"
    ensures found && listing.Some? ==> LsChecked(path, found, listing).out == Lines(Basenames(listing.value), "\r\n")
    ensures found && listing.None? ==> LsChecked(path, found, listing).out == ""
    ensures LsAsWritten(path, found, listing).ends != [] ==>
              LsAsWritten(path, found, listing) == LsChecked(path, found, listing)
  {
  }

  /** The `ls` process handler as written; `props(path)` is whether `props(path)` succeeds and
      `readDir(path)` the listing or None when reading fails. */
  method LsProcess(p: Proc, tokens: seq<CliToken>, props: string -> bool,
                   readDir: string -> Option<seq<string>>)
    modifies p
    ensures p.out == old(p.out) + LsAsWritten(LsPath(tokens), props(LsPath(tokens)), readDir(LsPath(tokens))).out
    ensures p.ends == old(p.ends) + LsAsWritten(LsPath(tokens), props(LsPath(tokens)), readDir(LsPath(tokens))).ends
  {
    var path := LsPath(tokens);
    if props(path) {
      match readDir(path) {
        case Some(files) =>
          BaseCommands.WriteBasenames(p, files, "\r\n");
          p.End(Code(0));
        case None =>
      }
    } else {
      p.Write("ls: " + path + ": No such file or directory");
      p.End(Code(0));
    }
  }

  /** The `ls` process handler with the listing's result tested. */
  method LsProcessChecked(p: Proc, tokens: seq<CliToken>, props: string -> bool,
                          readDir: string -> Option<seq<string>>)
    modifies p
    ensures p.out == old(p.out) + LsChecked(LsPath(tokens), props(LsPath(tokens)), readDir(LsPath(tokens))).out
    ensures p.ends == old(p.ends) + LsChecked(LsPath(tokens), props(LsPath(tokens)), readDir(LsPath(tokens))).ends
  {
    var path := LsPath(tokens);
    if props(path) {
      match readDir(path) {
        case Some(files) =>
          BaseCommands.WriteBasenames(p, files, "\r\n");
        case None =>
      }
    } else {
      p.Write("ls: " + path + ": No such file or directory");
    }
    p.End(Code(0));
  }
}

=== FILE: ls_completion.dfy ===
/** Tab completion for the demo `ls` command: the last token of the line is split into the
    directory to list and the partial name being typed; the directory's entries that start
    with that name decide between no completion, one completion (marked terminal unless it
    names a directory) and the extension all matches share, or else the candidate list.
    Reading the directory and asking whether a path is a directory are parameters. */
module LsCompletion {
  import opened Wrappers
  import opened Strings
  import opened Runtime

  /** The text being completed: the value of the line's final token when it is text, else "". */
  function LastText(tokens: seq<CliToken>): (r: string)
    ensures |tokens| > 0 && tokens[|tokens| - 1].Text? ==> r == tokens[|tokens| - 1].value
    ensures |tokens| == 0 || tokens[|tokens| - 1].Blank? ==> r == ""
  {
    if |tokens| > 0 && tokens[|tokens| - 1].Text? then tokens[|tokens| - 1].value else ""
  }

  /** The directory to list and the partial name typed in it. */
  datatype PathSplit = PathSplit(dir: string, name: string)

  /** Where the text is split: with no `/` the current directory "." is listed and the whole
      text is the name; a single leading `/` lists the root "/"; otherwise the text before the
      last `/` is listed and the name is the text after it. */
  function SplitPath(last: string): (r: PathSplit)
    ensures '/' !in r.name
    ensures |r.name| <= |last| && r.name == last[|last| - |r.name|..]
    ensures '/' !in last ==> r == PathSplit(".", last)
    ensures |last| > 0 && last[0] == '/' && '/' !in last[1..] ==> r == PathSplit("/", last[1..])
    ensures '/' in last && !(last[0] == '/' && '/' !in last[1..]) ==>
              r.dir + "/" + r.name == last && '/' !in r.name
  {
    var i := LastIndexOf(last, '/');
    if |last| == 0 || i == -1 then
      PathSplit(".", last[i + 1..])
    else
      assert ('/' !in last[1..]) <==> IndexOfFrom(last, '/', 1) == -1 by {
        forall k | 1 <= k < |last| ensures last[k] == last[1..][k - 1] {}
      }
      if last[0] == '/' && IndexOfFrom(last, '/', 1) == -1 then
        PathSplit("/", last[1..])
      else
        assert last == last[..i] + "/" + last[i + 1..];
        PathSplit(last[..i], last[i + 1..])
  }

  /** The listed names that start with `name`, in listing order (Java's `startsWith` is the
      prefix relation `<=` on strings). */
  function StartingWith(files: seq<string>, name: string): (r: seq<string>)
    ensures |r| <= |files|
    ensures forall i | 0 <= i < |r| :: name <= r[i]
    decreases |files|
  {
    if |files| == 0 then []
    else
      var init, f := files[..|files| - 1], files[|files| - 1];
      StartingWith(init, name) + if name <= f then [f] else []
  }

  /** Exactly the names that start with `name` are kept, each as often as it is listed. */
  lemma {:induction false} StartingWithSpec(files: seq<string>, name: string)
    ensures forall x :: x in StartingWith(files, name) <==> x in files && name <= x
    ensures forall x :: multiset(StartingWith(files, name))[x] == if name <= x then multiset(files)[x] else 0
    decreases |files|
  {
    if |files| > 0 {
      var init, f := files[..|files| - 1], files[|files| - 1];
      StartingWithSpec(init, name);
      assert files == init + [f];
      assert multiset(files) == multiset(init) + multiset{f};
    }
  }

  /** Filtering a concatenation filters each part in place: the kept names keep their
      listing order. */
  lemma {:induction false} StartingWithAppend(a: seq<string>, b: seq<string>, name: string)
    ensures StartingWith(a + b, name) == StartingWith(a, name) + StartingWith(b, name)
    decreases |b|
  {
    if |b| == 0 {
      assert a + b == a;
    } else {
      var init, f := b[..|b| - 1], b[|b| - 1];
      assert a + b == (a + init) + [f];
      assert (a + b)[..|a + b| - 1] == a + init;
      StartingWithAppend(a, init, name);
    }
  }

  /** The longest common prefix of two strings. */
  function CommonPrefix(a: string, b: string): (r: string)
    ensures r <= a && r <= b
    decreases |a|
  {
    if |a| == 0 || |b| == 0 || a[0] != b[0] then ""
    else [a[0]] + CommonPrefix(a[1..], b[1..])
  }

  /** Every common prefix of two strings is a prefix of CommonPrefix. */
  lemma {:induction false} CommonPrefixLongest(a: string, b: string, q: string)
    requires q <= a && q <= b
    ensures q <= CommonPrefix(a, b)
    decreases |a|
  {
    if |q| > 0 {
      assert q[0] == a[0] == b[0];
      CommonPrefixLongest(a[1..], b[1..], q[1..]);
      assert q == [q[0]] + q[1..];
    }
  }

  /** The longest prefix shared by all the strings (`Completion.findLongestCommonPrefix`),
      defined by folding CommonPrefix over them. */
  function Lcp(ss: seq<string>): (r: string)
    requires |ss| > 0
    ensures r <= ss[0] && r <= ss[|ss| - 1]
    decreases |ss|
  {
    if |ss| == 1 then ss[0] else CommonPrefix(Lcp(ss[..|ss| - 1]), ss[|ss| - 1])
  }

  /** Lcp is a prefix of every string, and every prefix they all share is a prefix of Lcp:
      it is the longest common prefix. */
  lemma {:induction false} LcpSpec(ss: seq<string>, q: string)
    requires |ss| > 0
    ensures forall i | 0 <= i < |ss| :: Lcp(ss) <= ss[i]
    ensures (forall i | 0 <= i < |ss| :: q <= ss[i]) ==> q <= Lcp(ss)
    decreases |ss|
  {
    if |ss| > 1 {
      var init := ss[..|ss| - 1];
      LcpSpec(init, q);
      var l := Lcp(init);
      assert forall i | 0 <= i < |init| :: ss[i] == init[i];
      if forall i | 0 <= i < |ss| :: q <= ss[i] {
        assert forall i | 0 <= i < |init| :: q <= init[i];
        CommonPrefixLongest(l, ss[|ss| - 1], q);
      }
    }
  }

  /** What the completion handler hands back: a candidate list, or one string to insert and
      whether the completion is terminal (a space may follow it). */
  datatype CompletionResult = Candidates(list: seq<string>) | Single(value: string, terminal: bool)

  /** The decision over the directory's entry names `files`, for the partial `name` of the typed
      text `last`; `isDir` says whether a path names a directory. */
  function Decide(files: seq<string>, name: string, last: string, isDir: string -> bool)
    : (r: CompletionResult)
    ensures r.Candidates? ==> r.list == StartingWith(files, name) && |r.list| != 1
    ensures r.Single? && r.terminal ==> |StartingWith(files, name)| == 1
    ensures r.Single? && !r.terminal ==> |r.value| > 0
  {
    var matches := StartingWith(files, name);
    if |matches| == 0 then Candidates([])
    else if |matches| == 1 then
      var compl := matches[0][|name|..];
      if isDir(last + compl) then Single(compl + "/", false) else Single(compl, true)
    else
      var common := Lcp(matches);
      if |common| > |name| then Single(common[|name|..], false) else Candidates(matches)
  }

  /** No entry starts with the name exactly when there is nothing to complete. */
  lemma DecideNone(files: seq<string>, name: string, last: string, isDir: string -> bool)
    ensures Decide(files, name, last, isDir) == Candidates([]) <==> forall f | f in files :: !(name <= f)
  {
    StartingWithSpec(files, name);
    var matches := StartingWith(files, name);
    if |matches| > 0 {
      assert matches[0] in matches;
    }
  }

  /** With exactly one matching entry, the typed name followed by the completion is that entry
      (plus "/" when `last` followed by the completion is a directory, which is then not
      terminal). */
  lemma DecideOne(files: seq<string>, name: string, last: string, isDir: string -> bool, m: string)
    requires StartingWith(files, name) == [m]
    ensures var r := Decide(files, name, last, isDir);
            r.Single? && (r.terminal <==> !isDir(last + m[|name|..])) &&
            name + r.value == if r.terminal then m else m + "/"
  {
    StartingWithSpec(files, name);
    assert m in StartingWith(files, name);
    assert name + m[|name|..] == m;
  }

  /** With several matching entries and an extension, the typed name followed by the
      completion is the longest prefix all matches share, longer than the name; without an
      extension all matches are offered and they share nothing beyond the name. */
  lemma DecideMany(files: seq<string>, name: string, last: string, isDir: string -> bool, q: string)
    requires |StartingWith(files, name)| > 1
    requires forall f | f in StartingWith(files, name) :: q <= f
    ensures var r := Decide(files, name, last, isDir);
            r.Single? ==> !r.terminal && |r.value| > 0 && q <= name + r.value &&
                          forall f | f in StartingWith(files, name) :: name + r.value <= f
    ensures var r := Decide(files, name, last, isDir);
            r.Candidates? ==> r.list == StartingWith(files, name) && q <= name
  {
    StartingWithSpec(files, name);
    var matches := StartingWith(files, name);
    LcpSpec(matches, q);
    LcpSpec(matches, name);
    var common := Lcp(matches);
    assert forall f | f in matches :: common <= f by {
      forall f | f in matches ensures common <= f {
        var i :| 0 <= i < |matches| && matches[i] == f;
      }
    }
    forall i | 0 <= i < |matches| ensures q <= matches[i] {
      assert matches[i] in matches;
    }
    if |common| > |name| {
      assert name + common[|name|..] == common;
    } else {
      assert common == name;
    }
  }

  /** The whole handler: `readDir(dir)` is the listing of the directory (full paths) or None
      when reading fails, in which case nothing is offered. */
  function Complete(tokens: seq<CliToken>, readDir: string -> Option<seq<string>>, isDir: string -> bool)
    : (r: CompletionResult)
    ensures readDir(SplitPath(LastText(tokens)).dir).None? ==> r == Candidates([])
  {
    var last := LastText(tokens);
    var split := SplitPath(last);
    match readDir(split.dir)
    case None => Candidates([])
    case Some(listing) => Decide(Basenames(listing), split.name, last, isDir)
  }

  /** The basename of `dir/name` is `name`. */
  lemma BasenameAfter(dir: string, name: string)
    requires '/' !in name
    ensures Basename(dir + "/" + name) == name
  {
    var path := dir + "/" + name;
    LastIndexOfAt(dir, '/', name);
    BasenameSpec(path);
    assert path[|dir| + 1..] == name;
  }

  /** Typing `do` where the directory holds `docs` and `downloads`: the two share only "do",
      so both are offered. */
  lemma CompleteScenarioCandidates(isDir: string -> bool)
    ensures Complete([Text("ls"), Blank, Text("do")],
                     d => if d == "." then Some(["./docs", "./downloads"]) else None, isDir)
            == Candidates(["docs", "downloads"])
  {
    assert LastText([Text("ls"), Blank, Text("do")]) == "do";
    assert SplitPath("do") == PathSplit(".", "do") by {
      assert '/' !in "do";
    }
    ScenarioListing();
    ScenarioDecide(isDir);
  }

  lemma ScenarioListing()
    ensures Basenames(["./docs", "./downloads"]) == ["docs", "downloads"]
  {
    assert "./docs" == "." + "/" + "docs";
    assert "./downloads" == "." + "/" + "downloads";
    BasenameAfter(".", "docs");
    BasenameAfter(".", "downloads");
  }

  lemma ScenarioDecide(isDir: string -> bool)
    ensures Decide(["docs", "downloads"], "do", "do", isDir) == Candidates(["docs", "downloads"])
  {
    ScenarioMatches();
    ScenarioLcp();
  }

  lemma ScenarioMatches()
    ensures StartingWith(["docs", "downloads"], "do") == ["docs", "downloads"]
  {
    assert ["docs", "downloads"][..1] == ["docs"];
    assert ["docs"][..0] == [];
    assert "do" <= "docs" && "do" <= "downloads";
  }

  lemma ScenarioLcp()
    ensures Lcp(["docs", "downloads"]) == "do"
  {
    assert ["docs", "downloads"][..1] == ["docs"];
    assert "docs"[1..] == "ocs" && "downloads"[1..] == "ownloads";
    assert "ocs"[1..] == "cs" && "ownloads"[1..] == "wnloads";
    assert CommonPrefix("cs", "wnloads") == "";
    assert CommonPrefix("ocs", "ownloads") == "o";
    assert CommonPrefix("docs", "downloads") == "do";
  }

  /** Typing `/et` where the root holds `etc` and `bin`: `/` is listed, and `c/` completes the
      directory `/etc`, not terminal. */
  lemma CompleteScenarioRoot()
    ensures Complete([Text("/et")], d => if d == "/" then Some(["/bin", "/etc"]) else None,
                     p => p == "/etc")
            == Single("c/", false)
  {
    assert LastText([Text("/et")]) == "/et";
    RootSplit();
    RootListing();
    RootDecide();
  }

  lemma RootSplit()
    ensures SplitPath("/et") == PathSplit("/", "et")
  {
    assert "/et"[1..] == "et";
    assert '/' !in "et";
  }

  lemma RootListing()
    ensures Basenames(["/bin", "/etc"]) == ["bin", "etc"]
  {
    assert "/bin" == "" + "/" + "bin";
    assert "/etc" == "" + "/" + "etc";
    BasenameAfter("", "bin");
    BasenameAfter("", "etc");
    assert ["/bin", "/etc"][..1] == ["/bin"];
  }

  lemma RootDecide()
    ensures Decide(["bin", "etc"], "et", "/et", p => p == "/etc") == Single("c/", false)
  {
    assert StartingWith(["bin", "etc"], "et") == ["etc"] by {
      assert ["bin", "etc"][..1] == ["bin"];
      assert ["bin"][..0] == [];
      assert !("et" <= "bin") by {
        assert "bin"[0] != "et"[0];
      }
      assert StartingWith(["bin"], "et") == [];
    }
    assert "etc"[2..] == "c";
    assert "/et" + "c" == "/etc";
  }
}

=== FILE: runtime.dfy ===
/** What a command handler sees of the shell engine: the running process (its output stream
    and its `end` calls), the per-connection session and Vert.x shared local maps, and the
    tokens of the command line. */
module Runtime {
  import opened Wrappers

  /** An `end` call: `end()` without a code, or `end(code)`. */
  datatype Exit = Default | Code(code: int)

  /** A token of the command line as the handlers use it: text carries its value; blanks and
      the other separators are only told apart from text. */
  datatype CliToken = Text(value: string) | Blank

  /** A running process as its handlers drive it: everything written to its output stream,
      in order, and every `end` call made so far. */
  class Proc {
    var out: string
    var ends: seq<Exit>

    constructor ()
      ensures out == [] && ends == []
    {
      out, ends := [], [];
    }

    /** `process.write(s)`: appends to the output stream. */
    method Write(s: string)
      modifies this
      ensures out == old(out) + s && ends == old(ends)
    {
      out := out + s;
    }

    /** `process.end()` or `process.end(code)`: records the call. */
    method End(e: Exit)
      modifies this
      ensures ends == old(ends) + [e] && out == old(out)
    {
      ends := ends + [e];
    }
  }

  /** The session: a connection-scoped map from key to value. */
  class Session {
    var data: map<string, string>

    constructor (data: map<string, string>)
      ensures this.data == data
    {
      this.data := data;
    }

    /** `session.get(key)`: the value, or None where Java returns null. */
    function Get(key: string): (r: Option<string>)
      reads this
      ensures r.Some? <==> key in data
      ensures r.Some? ==> r.value == data[key]
    {
      if key in data then Some(data[key]) else None
    }

    method Put(key: string, value: string)
      modifies this
      ensures data == old(data)[key := value]
    {
      data := data[key := value];
    }
  }

  /** The content of the named local map; a map that was never created reads as empty. */
  function MapOf(maps: map<string, map<string, string>>, name: string): (m: map<string, string>)
    ensures name in maps ==> m == maps[name]
    ensures name !in maps ==> m == map[]
  {
    if name in maps then maps[name] else map[]
  }

  /** `map.get(key)`: the value stored under `key`, or None where Java returns null. */
  function MapGet(m: map<string, string>, key: string): (r: Option<string>)
    ensures r.Some? <==> key in m
    ensures r.Some? ==> r.value == m[key]
  {
    if key in m then Some(m[key]) else None
  }

  /** The value stored under `key` in the named local map, or None where Java returns null. */
  function Lookup(maps: map<string, map<string, string>>, name: string, key: string): (r: Option<string>)
    ensures r.Some? <==> name in maps && key in maps[name]
    ensures r.Some? ==> r.value == maps[name][key]
  {
    MapGet(MapOf(maps, name), key)
  }

  /** Vert.x shared data: the local maps by name, each a map from key to value. */
  class SharedData {
    var maps: map<string, map<string, string>>

    constructor (maps: map<string, map<string, string>>)
      ensures this.maps == maps
    {
      this.maps := maps;
    }

    /** `sharedData.getLocalMap(name)`: creates the map, empty, when it does not exist yet. */
    method GetLocalMap(name: string)
      modifies this
      ensures maps == old(maps)[name := MapOf(old(maps), name)]
    {
      if name !in maps {
        maps := maps[name := map[]];
      }
    }

    /** `map.get(key)` on an existing local map. */
    method Get(name: string, key: string) returns (v: Option<string>)
      requires name in maps
      ensures v == Lookup(maps, name, key)
    {
      v := if key in maps[name] then Some(maps[name][key]) else None;
    }

    /** `map.put(key, value)` on an existing local map. */
    method Put(name: string, key: string, value: string)
      requires name in maps
      modifies this
      ensures maps == old(maps)[name := old(maps)[name][key := value]]
    {
      maps := maps[name := maps[name][key := value]];
    }

    /** `map.remove(key)` on an existing local map. */
    method Remove(name: string, key: string)
      requires name in maps
      modifies this
      ensures maps == old(maps)[name := old(maps)[name] - {key}]
    {
      maps := maps[name := maps[name] - {key}];
    }
  }
}

=== FILE: sleep.dfy ===
/** The `sleep` command's job control (SleepImpl, present in BaseCommands and again in Main):
    argument parsing, a pending timer, and the INT / TSTP / CONT handlers that cancel,
    suspend and resume it. The clock is a parameter of every event that reads it. */
module Sleep {
  import opened Wrappers
  import opened Strings
  import opened Runtime

  /** What one `scheduleSleep` call with a positive duration sets up: the duration, the time it
      was scheduled (`now`), the `remaining` cell (-1 until a TSTP cancels the timer) and
      whether the timer is still pending (neither fired nor cancelled). */
  datatype Timer = Timer(millis: int, start: int, remaining: int, pending: bool)

  /** Idle: no signal handler installed yet; Armed: the handlers of the last positive
      `scheduleSleep` are installed and close over `timer`. */
  datatype SleepState = Idle | Armed(timer: Timer)

  /** A signal delivered to the process (with the clock reading where the handler reads it),
      or the timer firing. */
  datatype Event = Interrupt | Suspend(now: int) | Resume(now: int) | Fire

  /** The state after a step and the number of `end` calls the step made. */
  datatype Outcome = Outcome(state: SleepState, ends: nat)

  /** The two copies of the command differ only in the usage line and the exit code. */
  datatype Variant = BaseVariant | DemoVariant

  function Usage(v: Variant): string
  {
    match v
    case BaseVariant => "usage: sleep seconds\n"
    case DemoVariant => "usage: sleep seconds\r\n"
  }

  function ExitOf(v: Variant): Exit
  {
    match v
    case BaseVariant => Default
    case DemoVariant => Code(0)
  }

  /** `seconds * 1000` in Java `int` arithmetic, where `seconds` is the parsed argument or -1
      when Integer.parseInt rejects it. */
  function Millis(arg: string): (r: int)
    ensures MinInt32 <= r <= MaxInt32
    ensures ParseInt(arg).None? ==> r == -1000
    ensures ParseInt(arg).Some? && -2147483 <= ParseInt(arg).value <= 2147483 ==>
              r == ParseInt(arg).value * 1000
    ensures ParseInt(arg).Some? ==> (r - ParseInt(arg).value * 1000) % 0x1_0000_0000 == 0
  {
    var seconds := match ParseInt(arg) case Some(n) => n case None => -1;
    WrapInt32(seconds * 1000)
  }

  /** `scheduleSleep(millis)` at time `now`: a positive duration starts a pending timer and
      installs fresh handlers; anything else ends the process and leaves the handlers as they
      were. */
  function Schedule(s: SleepState, millis: int, now: int): (o: Outcome)
    ensures o.ends == 0 <==> millis > 0
    ensures o.ends <= 1
    ensures o.ends == 0 ==> o.state.Armed? && o.state.timer.pending && o.state.timer.remaining == -1
                            && o.state.timer.millis == millis && o.state.timer.start == now
    ensures o.ends == 1 ==> o.state == s
  {
    if millis > 0 then Outcome(Armed(Timer(millis, now, -1, true)), 0) else Outcome(s, 1)
  }

  /** `run`: without an argument the usage line is written and the process ends; otherwise the
      parsed duration is scheduled. */
  function Start(args: seq<string>, now: int): (o: Outcome)
    ensures o.state.Armed? <==> |args| > 0 && Millis(args[0]) > 0
    ensures o.ends == if o.state.Armed? then 0 else 1
    ensures o.state.Armed? ==>
              (o.state.timer.pending && o.state.timer.remaining == -1
               && o.state.timer.millis == Millis(args[0]) && o.state.timer.start == now)
  {
    if |args| == 0 then Outcome(Idle, 1) else Schedule(Idle, Millis(args[0]), now)
  }

  /** One event. The timer firing and INT both end the process only while the timer is
      pending (INT through `cancelTimer` reporting true); TSTP cancels a pending timer and
      records what is left of it; CONT calls `scheduleSleep(remaining)`. */
  function Step(s: SleepState, e: Event): (o: Outcome)
    ensures o.ends <= 1
    ensures s.Idle? ==> o == Outcome(Idle, 0)
    ensures s.Armed? ==> o.state.Armed?
    ensures s.Armed? && !e.Resume? ==>
              (o.ends == 1 <==> s.timer.pending && (e.Fire? || e.Interrupt?)) && !o.state.timer.pending
    ensures s.Armed? && e.Resume? ==> (o.ends == 1 <==> s.timer.remaining <= 0)
  {
    match s
    case Idle => Outcome(Idle, 0)
    case Armed(t) =>
      match e
      case Fire =>
        if t.pending then Outcome(Armed(t.(pending := false)), 1) else Outcome(s, 0)
      case Interrupt =>
        if t.pending then Outcome(Armed(t.(pending := false)), 1) else Outcome(s, 0)
      case Suspend(now) =>
        if t.pending then Outcome(Armed(t.(pending := false, remaining := t.millis - (now - t.start))), 0)
        else Outcome(s, 0)
      case Resume(now) => Schedule(s, t.remaining, now)
  }

  /** A sequence of events, with the total number of `end` calls. */
  function Run(s: SleepState, events: seq<Event>): (o: Outcome)
    ensures o.ends <= |events|
    ensures s.Idle? ==> o == Outcome(Idle, 0)
    ensures s.Armed? ==> o.state.Armed?
    decreases |events|
  {
    if |events| == 0 then Outcome(s, 0)
    else
      var first := Step(s, events[0]);
      var rest := Run(first.state, events[1..]);
      Outcome(rest.state, first.ends + rest.ends)
  }

  predicate NoResume(events: seq<Event>)
  {
    forall i | 0 <= i < |events| :: !events[i].Resume?
  }

  /** Clock readings never go back and none is before `from`. */
  predicate ClockFrom(events: seq<Event>, from: int)
    decreases |events|
  {
    if |events| == 0 then true
    else
      match events[0]
      case Suspend(now) => from <= now && ClockFrom(events[1..], now)
      case Resume(now) => from <= now && ClockFrom(events[1..], now)
      case _ => ClockFrom(events[1..], from)
  }

  /** The state kept by a timer of at most `bound` milliseconds. */
  predicate Bounded(s: SleepState, bound: int)
  {
    s.Armed? ==> 0 < s.timer.millis <= bound && s.timer.remaining <= s.timer.millis
                 && (s.timer.pending ==> s.timer.remaining == -1)
  }

  /** Without CONT, the timer firing and INT together end the process at most once, and not at
      all once the timer is no longer pending: each needs the timer pending and clears it. */
  lemma {:induction false} AtMostOneEndWithoutResume(s: SleepState, events: seq<Event>)
    requires NoResume(events)
    ensures Run(s, events).ends <= if s.Armed? && s.timer.pending then 1 else 0
    decreases |events|
  {
    if |events| > 0 {
      var first := Step(s, events[0]);
      assert NoResume(events[1..]) by {
        forall i | 0 <= i < |events| - 1 ensures !events[1..][i].Resume? {
          assert events[1..][i] == events[i + 1];
        }
      }
      AtMostOneEndWithoutResume(first.state, events[1..]);
    }
  }

  /** With a clock that does not go back, suspending and resuming never lengthens the sleep:
      every timer scheduled along the way, and every recorded `remaining`, is at most the
      original duration. */
  lemma {:induction false} ResumeNeverLonger(s: SleepState, events: seq<Event>, bound: int, from: int)
    requires Bounded(s, bound)
    requires s.Armed? ==> s.timer.start <= from
    requires ClockFrom(events, from)
    ensures Bounded(Run(s, events).state, bound)
    decreases |events|
  {
    if |events| > 0 {
      var first := Step(s, events[0]);
      var next := match events[0] case Suspend(now) => now case Resume(now) => now case _ => from;
      assert first.state.Armed? ==> first.state.timer.start <= next;
      ResumeNeverLonger(first.state, events[1..], bound, next);
    }
  }

  /** For `sleep` run with an argument at time `now` and a clock that does not go back, every
      later timer and every recorded remainder is at most the duration first computed. */
  lemma SleepNeverLonger(args: seq<string>, now: int, events: seq<Event>)
    requires |args| > 0
    requires ClockFrom(events, now)
    ensures Bounded(Run(Start(args, now).state, events).state, Millis(args[0]))
  {
    ResumeNeverLonger(Start(args, now).state, events, Millis(args[0]), now);
  }

  /** TSTP while pending records `millis - (now - start)`, which with `now >= start` is at most
      `millis`; the CONT that follows schedules exactly that remainder. */
  lemma SuspendThenResume(t: Timer, stop: int, resume: int)
    requires t.pending && t.start <= stop
    requires t.millis - (stop - t.start) > 0
    ensures Run(Armed(t), [Suspend(stop), Resume(resume)])
              == Outcome(Armed(Timer(t.millis - (stop - t.start), resume, -1, true)), 0)
    ensures t.millis - (stop - t.start) <= t.millis
  {
    var suspended := Armed(t.(pending := false, remaining := t.millis - (stop - t.start)));
    assert Step(Armed(t), Suspend(stop)) == Outcome(suspended, 0);
    assert [Suspend(stop), Resume(resume)][1..] == [Resume(resume)];
    assert [Resume(resume)][1..] == [];
    assert Run(suspended, [Resume(resume)])
        == Outcome(Armed(Timer(t.millis - (stop - t.start), resume, -1, true)), 0);
  }

  /** CONT while the timer is still pending reads the initial -1, so `scheduleSleep(-1)` ends
      the process; the timer stays pending and ends it a second time when it fires. */
  lemma ResumeWithoutSuspendEnds(t: Timer, now: int)
    requires t.pending && t.remaining == -1
    ensures Step(Armed(t), Resume(now)) == Outcome(Armed(t), 1)
    ensures Run(Armed(t), [Resume(now), Fire]).ends == 2
  {
    assert [Resume(now), Fire][1..] == [Fire];
    assert [Fire][1..] == [];
    assert Run(Armed(t), [Fire]).ends == 1;
  }

  /** After TSTP has cancelled the timer, INT finds nothing to cancel and does not end the
      process. */
  lemma InterruptWhileSuspended(t: Timer, now: int)
    requires t.pending
    ensures Run(Armed(t), [Suspend(now), Interrupt]).ends == 0
  {
    var suspended := Step(Armed(t), Suspend(now)).state;
    assert !suspended.timer.pending;
    assert [Suspend(now), Interrupt][1..] == [Interrupt];
    assert [Interrupt][1..] == [];
    assert Run(suspended, [Interrupt]).ends == 0;
  }

  /** `sleep 5` at t=0, TSTP at t=2000, CONT at t=4000: the new timer runs the remaining 3000
      ms from t=4000, and its firing ends the process once. */
  lemma SuspendResumeScenario()
    ensures Start(["5"], 0).state == Armed(Timer(5000, 0, -1, true))
    ensures Run(Start(["5"], 0).state, [Suspend(2000), Resume(4000)]).state
              == Armed(Timer(3000, 4000, -1, true))
    ensures Run(Start(["5"], 0).state, [Suspend(2000), Resume(4000), Fire]).ends == 1
  {
    ParseIntToString(5);
    assert IntToString(5) == "5";
    var s := Start(["5"], 0).state;
    var evs := [Suspend(2000), Resume(4000), Fire];
    assert evs[1..] == [Resume(4000), Fire];
    assert evs[1..][1..] == [Fire];
    SuspendThenResume(s.timer, 2000, 4000);
  }

  /** `sleep 5` then INT within the first second: the timer is cancelled and the process ends
      once; the cancelled timer never ends it again. */
  lemma InterruptScenario()
    ensures Run(Start(["5"], 0).state, [Interrupt, Fire]).ends == 1
  {
    ParseIntToString(5);
    assert IntToString(5) == "5";
    assert [Interrupt, Fire][1..] == [Fire];
  }

  /** The 32-bit product wraps: the argument "-4294967", as `process.arguments().get(0)` hands
      it over, gives a 296 ms timer, and the argument "2147484" a negative product, so the
      process ends at once. */
  lemma MillisWrapAround()
    ensures Millis("-4294967") == 296
    ensures Millis("2147484") < 0
  {
    ParseMinus4294967();
    Parse2147484();
  }

  lemma ParseMinus4294967()
    ensures ParseInt("-4294967") == Some(-4294967)
  {
    assert "-4294967"[1..] == "4294967";
    assert "42"[..1] == "4";
    assert DigitsValue("42") == 42;
    assert "429"[..2] == "42";
    assert DigitsValue("429") == 429;
    assert "4294"[..3] == "429";
    assert DigitsValue("4294") == 4294;
    assert "42949"[..4] == "4294";
    assert DigitsValue("42949") == 42949;
    assert "429496"[..5] == "42949";
    assert DigitsValue("429496") == 429496;
    assert "4294967"[..6] == "429496";
    assert DigitsValue("4294967") == 4294967;
  }

  lemma Parse2147484()
    ensures ParseInt("2147484") == Some(2147484)
  {
    assert "21"[..1] == "2";
    assert DigitsValue("21") == 21;
    assert "214"[..2] == "21";
    assert DigitsValue("214") == 214;
    assert "2147"[..3] == "214";
    assert DigitsValue("2147") == 2147;
    assert "21474"[..4] == "2147";
    assert DigitsValue("21474") == 21474;
    assert "214748"[..5] == "21474";
    assert DigitsValue("214748") == 214748;
    assert "2147484"[..6] == "214748";
    assert DigitsValue("2147484") == 2147484;
  }

  function Repeat(e: Exit, k: nat): (r: seq<Exit>)
    ensures |r| == k && forall i | 0 <= i < k :: r[i] == e
  {
    seq(k, _ => e)
  }

  /** One process running `sleep`: its handler state, updated by the handlers as signals and
      the timer arrive. */
  class SleepProcess {
    const p: Proc
    const usage: string
    const exit: Exit
    var installed: bool
    var millis: int
    var start: int
    var remaining: int
    var pending: bool

    function State(): SleepState
      reads this
    {
      if installed then Armed(Timer(millis, start, remaining, pending)) else Idle
    }

    constructor (p: Proc, variant: Variant)
      ensures this.p == p && State() == Idle
      ensures usage == Usage(variant) && exit == ExitOf(variant)
    {
      this.p := p;
      usage := Usage(variant);
      exit := ExitOf(variant);
      installed, millis, start, remaining, pending := false, 0, 0, -1, false;
    }

    /** `scheduleSleep(ms)` at time `now`. */
    method ScheduleSleep(ms: int, now: int)
      modifies this, p
      ensures State() == Schedule(old(State()), ms, now).state
      ensures p.ends == old(p.ends) + Repeat(exit, Schedule(old(State()), ms, now).ends)
      ensures p.out == old(p.out)
    {
      if ms > 0 {
        installed, millis, start, remaining, pending := true, ms, now, -1, true;
      } else {
        p.End(exit);
      }
    }

    /** `run`, the process handler, started at time `now`. */
    method Run(args: seq<string>, now: int)
      requires State() == Idle
      modifies this, p
      ensures State() == Start(args, now).state
      ensures p.ends == old(p.ends) + Repeat(exit, Start(args, now).ends)
      ensures p.out == old(p.out) + if |args| == 0 then usage else ""
    {
      if |args| == 0 {
        p.Write(usage);
        p.End(exit);
      } else {
        ScheduleSleep(Millis(args[0]), now);
      }
    }

    /** The timer firing. */
    method OnTimer()
      modifies this, p
      ensures State() == Step(old(State()), Fire).state
      ensures p.ends == old(p.ends) + Repeat(exit, Step(old(State()), Fire).ends)
      ensures p.out == old(p.out)
    {
      if installed && pending {
        pending := false;
        p.End(exit);
      }
    }

    /** The SIGINT handler: ends the process only if it cancelled a pending timer. */
    method OnInterrupt()
      modifies this, p
      ensures State() == Step(old(State()), Interrupt).state
      ensures p.ends == old(p.ends) + Repeat(exit, Step(old(State()), Interrupt).ends)
      ensures p.out == old(p.out)
    {
      if installed && pending {
        pending := false;
        p.End(exit);
      }
    }

    /** The SIGTSTP handler at time `now`: cancels a pending timer and records what is left. */
    method OnSuspend(now: int)
      modifies this, p
      ensures State() == Step(old(State()), Suspend(now)).state
      ensures p.ends == old(p.ends) && p.out == old(p.out)
    {
      if installed && pending {
        pending := false;
        remaining := millis - (now - start);
      }
    }

    /** The SIGCONT handler at time `now`: `scheduleSleep(remaining)`. */
    method OnResume(now: int)
      modifies this, p
      ensures State() == Step(old(State()), Resume(now)).state
      ensures p.ends == old(p.ends) + Repeat(exit, Step(old(State()), Resume(now)).ends)
      ensures p.out == old(p.out)
    {
      if installed {
        ScheduleSleep(remaining, now);
      }
    }
  }
}

=== FILE: strings.dfy ===
/** The few pieces of java.lang.String and java.lang.Integer that the commands rely on:
    lastIndexOf/indexOf, basename extraction, joining with a separator, line output,
    decimal rendering, Integer.parseInt and 32-bit `int` wrap-around. */
module Strings {
  import opened Wrappers

  const MinInt32: int := -0x8000_0000
  const MaxInt32: int := 0x7fff_ffff

  /** `s.lastIndexOf(c)`: the last position of `c` in `s`, or -1 when there is none. */
  function LastIndexOf(s: string, c: char): (r: int)
    ensures -1 <= r < |s|
    ensures r == -1 <==> c !in s
    ensures 0 <= r ==> s[r] == c && c !in s[r + 1..]
  {
    if |s| == 0 then -1
    else if s[|s| - 1] == c then
      assert s[|s|..] == [];
      |s| - 1
    else
      var init := s[..|s| - 1];
      var r := LastIndexOf(init, c);
      assert s == init + [s[|s| - 1]];
      if r < 0 then r
      else
        assert s[r] == init[r];
        assert s[r + 1..] == init[r + 1..] + [s[|s| - 1]];
        r
  }

  /** `s.indexOf(c, from)`: the first position at or after `from` holding `c`, or -1. */
  function IndexOfFrom(s: string, c: char, from: nat): (r: int)
    ensures r == -1 || from <= r < |s|
    ensures r == -1 <==> forall i | from <= i < |s| :: s[i] != c
    ensures 0 <= r ==> s[r] == c && forall i | from <= i < r :: s[i] != c
    decreases |s| - from
  {
    if from >= |s| then -1
    else if s[from] == c then from
    else IndexOfFrom(s, c, from + 1)
  }

  /** If `c` does not occur in `b`, the last `c` of `a + [c] + b` is the one between them. */
  lemma LastIndexOfAt(a: string, c: char, b: string)
    requires c !in b
    ensures LastIndexOf(a + [c] + b, c) == |a|
  {
    var s := a + [c] + b;
    assert s[|a|] == c;
    assert s[|a| + 1..] == b;
  }

  /** The text after the last `/` of a path, or the whole path when it has none. */
  function Basename(path: string): string
    decreases |path|
  {
    if |path| == 0 || path[|path| - 1] == '/' then ""
    else Basename(path[..|path| - 1]) + [path[|path| - 1]]
  }

  /** Basename is what `path.substring(path.lastIndexOf('/') + 1)` computes: a suffix of the
      path with no `/`, preceded by a `/` unless it is the whole path. */
  lemma {:induction false} BasenameSpec(path: string)
    ensures Basename(path) == path[LastIndexOf(path, '/') + 1..]
    ensures '/' !in Basename(path)
    ensures '/' !in path ==> Basename(path) == path
    ensures '/' in path ==> path[|path| - |Basename(path)| - 1] == '/'
    decreases |path|
  {
    if |path| > 0 && path[|path| - 1] != '/' {
      var init := path[..|path| - 1];
      BasenameSpec(init);
      assert path == init + [path[|path| - 1]];
      var i := LastIndexOf(init, '/');
      assert LastIndexOf(path, '/') == i;
      assert path[i + 1..] == init[i + 1..] + [path[|path| - 1]];
    }
  }

  /** The basename of every listed path, in listing order. */
  function Basenames(files: seq<string>): (r: seq<string>)
    ensures |r| == |files|
    decreases |files|
  {
    if |files| == 0 then [] else Basenames(files[..|files| - 1]) + [Basename(files[|files| - 1])]
  }

  /** The i-th basename is that of the i-th listed path. */
  lemma {:induction false} BasenamesAt(files: seq<string>, i: nat)
    requires i < |files|
    ensures Basenames(files)[i] == Basename(files[i])
    decreases |files|
  {
    if i < |files| - 1 {
      BasenamesAt(files[..|files| - 1], i);
    }
  }

  /** The parts with exactly one `sep` between neighbours and none before or after. */
  function Join(parts: seq<string>, sep: char): string
  {
    if |parts| == 0 then ""
    else if |parts| == 1 then parts[0]
    else Join(parts[..|parts| - 1], sep) + [sep] + parts[|parts| - 1]
  }

  /** The pieces of `s` between occurrences of `sep`; the inverse of Join. */
  function Split(s: string, sep: char): (r: seq<string>)
    ensures |r| > 0
    decreases |s|
  {
    var i := LastIndexOf(s, sep);
    if i < 0 then [s] else Split(s[..i], sep) + [s[i + 1..]]
  }

  /** No piece of a split holds the separator. */
  lemma {:induction false} SplitPieces(s: string, sep: char)
    ensures forall k | 0 <= k < |Split(s, sep)| :: sep !in Split(s, sep)[k]
    decreases |s|
  {
    var i := LastIndexOf(s, sep);
    if i >= 0 {
      SplitPieces(s[..i], sep);
    }
  }

  /** Splitting a join gives back the parts, so a join puts one separator between neighbours
      and adds nothing else. */
  lemma {:induction false} SplitJoin(parts: seq<string>, sep: char)
    requires |parts| > 0
    requires forall i | 0 <= i < |parts| :: sep !in parts[i]
    ensures Split(Join(parts, sep), sep) == parts
  {
    if |parts| > 1 {
      var init, last := parts[..|parts| - 1], parts[|parts| - 1];
      assert Join(parts, sep) == Join(init, sep) + [sep] + last;
      SplitSnoc(Join(init, sep), sep, last);
      SplitJoin(init, sep);
      assert init + [last] == parts;
    }
  }

  /** Joining the pieces of a split gives back the string. */
  lemma {:induction false} JoinSplit(s: string, sep: char)
    ensures Join(Split(s, sep), sep) == s
    decreases |s|
  {
    var i := LastIndexOf(s, sep);
    if i >= 0 {
      var front, last := Split(s[..i], sep), s[i + 1..];
      var r := front + [last];
      assert Split(s, sep) == r;
      assert r[..|r| - 1] == front;
      assert Join(r, sep) == Join(front, sep) + [sep] + last;
      JoinSplit(s[..i], sep);
      assert s == s[..i] + [sep] + last;
    }
  }

  /** Each item followed by the terminator `eol`, in order: what a loop writing
      `item + eol` per item produces. */
  function Lines(items: seq<string>, eol: string): string
  {
    if |items| == 0 then "" else Lines(items[..|items| - 1], eol) + items[|items| - 1] + eol
  }

  lemma LinesSnoc(items: seq<string>, x: string, eol: string)
    ensures Lines(items + [x], eol) == Lines(items, eol) + x + eol
  {
    assert (items + [x])[..|items|] == items;
  }

  /** Output `out` followed by the lines of `items + [x]` is that output followed by the lines
      of `items` and then `x + eol`: the step of a loop writing one line per item. */
  lemma LinesAfter(out: string, items: seq<string>, x: string, eol: string)
    ensures out + Lines(items + [x], eol) == (out + Lines(items, eol)) + (x + eol)
  {
    LinesSnoc(items, x, eol);
  }

  /** Splitting text that ends in a separator and a separator-free tail splits the front and
      adds the tail as the last piece. */
  lemma SplitSnoc(front: string, sep: char, last: string)
    requires sep !in last
    ensures Split(front + [sep] + last, sep) == Split(front, sep) + [last]
  {
    var s := front + [sep] + last;
    LastIndexOfAt(front, sep, last);
    assert s[..|front|] == front;
    assert s[|front| + 1..] == last;
  }

  /** Text written as `Lines(items, "\n")` and then `last` splits back at the newlines into
      exactly the items and `last`: one line per item, in order. */
  lemma {:induction false} SplitLines(items: seq<string>, last: string)
    requires forall i | 0 <= i < |items| :: '\n' !in items[i]
    requires '\n' !in last
    ensures Split(Lines(items, "\n") + last, '\n') == items + [last]
  {
    if |items| > 0 {
      var init, y := items[..|items| - 1], items[|items| - 1];
      var front := Lines(init, "\n") + y;
      assert Lines(items, "\n") + last == front + ['\n'] + last;
      SplitSnoc(front, '\n', last);
      SplitLines(init, y);
      assert init + [y] == items;
    } else {
      assert Lines(items, "\n") + last == last;
    }
  }

  predicate IsDigit(ch: char) { '0' <= ch <= '9' }

  predicate AllDigits(s: string) { forall i | 0 <= i < |s| :: IsDigit(s[i]) }

  /** The value of a string of decimal digits, most significant first. */
  function DigitsValue(ds: string): nat
    requires AllDigits(ds)
    decreases |ds|
  {
    if |ds| == 0 then 0
    else 10 * DigitsValue(ds[..|ds| - 1]) + (ds[|ds| - 1] as int - '0' as int)
  }

  /** Decimal rendering of a natural number, as Java's Integer.toString writes it: at least
      one digit and no leading zero. */
  function NatToString(n: nat): (r: string)
    ensures |r| > 0 && AllDigits(r)
    ensures r[0] == '0' ==> n == 0
    decreases n
  {
    var last := ('0' as int + n % 10) as char;
    if n < 10 then [last] else NatToString(n / 10) + [last]
  }

  /** `"" + n` for a Java int: a minus sign before the digits of a negative value. */
  function IntToString(n: int): (r: string)
    ensures |r| > 0
    ensures n < 0 <==> r[0] == '-'
  {
    if n < 0 then "-" + NatToString(-n) else NatToString(n)
  }

  /** The digits NatToString writes are worth the number they render. */
  lemma {:induction false} NatToStringValue(n: nat)
    ensures DigitsValue(NatToString(n)) == n
    decreases n
  {
    if n >= 10 {
      var r := NatToString(n);
      NatToStringValue(n / 10);
      assert r[..|r| - 1] == NatToString(n / 10);
    }
  }

  /** Java's Integer.parseInt: an optional `-` or `+` and at least one decimal digit, whose
      value lies in the 32-bit range; anything else raises NumberFormatException, here None. */
  function ParseInt(s: string): (r: Option<int>)
    ensures r.Some? ==> MinInt32 <= r.value <= MaxInt32
    ensures r.Some? ==> |s| > 0 && (IsDigit(s[0]) || s[0] == '-' || s[0] == '+')
    ensures |s| > 0 && AllDigits(s) && DigitsValue(s) <= MaxInt32 ==> r == Some(DigitsValue(s))
    ensures |s| > 0 && !IsDigit(s[0]) && s[0] != '-' && s[0] != '+' ==> r == None
    ensures r.Some? ==> forall i | 1 <= i < |s| :: IsDigit(s[i])
    ensures r.Some? && (s[0] == '-' || s[0] == '+') ==> |s| >= 2
    ensures |s| > 0 && AllDigits(s) && DigitsValue(s) > MaxInt32 ==> r == None
    ensures |s| >= 2 && s[0] == '+' && AllDigits(s[1..]) ==>
              r == if DigitsValue(s[1..]) <= MaxInt32 then Some(DigitsValue(s[1..])) else None
    ensures |s| >= 2 && s[0] == '-' && AllDigits(s[1..]) ==>
              r == if DigitsValue(s[1..]) <= -MinInt32 then Some(-(DigitsValue(s[1..]) as int)) else None
  {
    if |s| == 0 then None
    else
      var digits := if s[0] == '-' || s[0] == '+' then s[1..] else s;
      if |digits| == 0 || !AllDigits(digits) then None
      else
        var v: int := if s[0] == '-' then -(DigitsValue(digits) as int) else DigitsValue(digits);
        if MinInt32 <= v <= MaxInt32 then Some(v) else None
  }

  /** Parsing a rendered 32-bit value gives the value back. */
  lemma ParseIntToString(n: int)
    requires MinInt32 <= n <= MaxInt32
    ensures ParseInt(IntToString(n)) == Some(n)
  {
    if n < 0 {
      var d := NatToString(-n);
      NatToStringValue(-n);
      assert ("-" + d)[1..] == d;
    } else {
      NatToStringValue(n);
    }
  }

  /** Java `int` arithmetic: the value in the 32-bit range congruent to `x` modulo 2^32. */
  function WrapInt32(x: int): (r: int)
    ensures MinInt32 <= r <= MaxInt32
    ensures (x - r) % 0x1_0000_0000 == 0
    ensures MinInt32 <= x <= MaxInt32 ==> r == x
  {
    (x - MinInt32) % 0x1_0000_0000 + MinInt32
  }
}

=== FILE: wrappers.dfy ===
/** Optional values and results with an error, used for Java's nullable returns and for
    asynchronous results that either succeed or fail. */
module Wrappers {

  datatype Option<+T> = None | Some(value: T)

  datatype Result<+R, +E> = Success(value: R) | Failure(error: E)
}
